=== FILE: README.md ===
# A Dafny model of the RayTracingCanvas renderer

This project models the rendering core of a small CPU ray tracer. The
renderer holds a scene of spheres and lights. For every pixel of the canvas
it casts a ray from the camera through a viewport. It finds the nearest
sphere the ray meets, lights the hit point with ambient, diffuse and
specular terms, and follows mirror reflections up to a fixed depth.

The model covers:

- **Vector algebra** (`Vec`, `Misc`): the `Vec3` operators, the dot and
  cross products, the vector length, the line-plane intersection and the
  triangle normal.
- **Scene state** (`Lights`, `Scene`): lights, and spheres kept in four
  parallel sequences, with `add_sphere` and `add_light`.
- **Ray-sphere intersection and nearest-hit search** (`Intersect`): the
  quadratic formula, and the linear scan that keeps the smallest root inside
  an open window.
- **Lighting** (`Lighting`): mirror reflection and the per-light
  accumulation of `compute_lighting`.
- **The recursive tracer** (`Tracer`): `trace_ray`, with a reference reading
  of it as a blend of colours along a reflection path.
- **The canvas** (`Canvas`): `canvas_to_viewport`,
  `combine_color_and_intensity`, and the pixel loops of `draw`. `draw` yields
  its `put_pixel` calls as a sequence.

All arithmetic is over Dafny's `real`, an idealised model of the source's
`float`.

`std::sqrt` and `std::pow` are fields of a `MathLib` value:
- `Lawful` states the one property of `sqrt` the model relies on: for
  `x >= 0`, `sqrt(x) >= 0` and `sqrt(x) * sqrt(x) == x`.
- `pow` is left unconstrained.

The camera orientation matrix (`Mat`) is an opaque function from `Vec3` to
`Vec4`. `Color`'s `*` and `+` operators are the fields of a `ColorOps`
value. Neither header is part of this model.

`canvas_to_viewport` divides the pixel's x by the canvas width and its y by
the canvas height.

## Model

| member | source | states |
|---|---|---|
| Vec.Neg | Vec.h:20-23 | unary minus, componentwise; its properties are in `Vec.NegInvolution` and `Vec.SubIsAddNeg` |
| Vec.Sub | Vec.h:25-28 | subtraction, componentwise; its properties are in `Vec.SubThenAdd` and `Vec.SubIsAddNeg` |
| Vec.Add | Vec.h:30-33 | addition, componentwise; its properties are in `Vec.AddZero`, `Vec.AddAssociative` and `Vec.AddCommutative` |
| Vec.Scale | Vec.h:35-38 | scalar multiplication, componentwise; its properties are in `Vec.ScaleDistributes` and `Vec.DivUndoesScale` |
| Vec.Div | Vec.h:40-43 | division by a scalar, componentwise; its inverse property is `Vec.DivUndoesScale` |
| Vec.NegInvolution | Vec.h:20-23 | unary minus undoes itself: `-(-a) == a` |
| Vec.SubThenAdd | Vec.h:25-33 | subtraction and addition undo each other: `(a - b) + b == a` and `(a + b) - b == a` |
| Vec.SubIsAddNeg | Vec.h:20-33 | `a - b == a + (-b)` |
| Vec.ScaleDistributes | Vec.h:30-38 | scalar multiplication distributes over addition |
| Vec.DivUndoesScale | Vec.h:35-43 | for `k != 0`, dividing `k * a` by `k` gives back `a` |
| Vec.AddZero | Vec.h:30-33 | the zero vector is neutral for `+` on both sides |
| Vec.AddAssociative | Vec.h:30-33 | `+` is associative |
| Vec.AddCommutative | Vec.h:30-33 | `+` is commutative |
| Misc.Dot | misc.h:18-21 | the dot product; its properties are in the `Misc.Dot...` rows, `Misc.CauchySchwarzUnit` and `Misc.Lagrange` |
| Misc.DotW | misc.h:22-25 | the `Vec3`/`Vec4` dot product; `Misc.DotWIgnoresW` relates it to `Misc.Dot` |
| Misc.Cross | misc.h:35-41 | the cross product; its properties are in `Misc.CrossOrthogonal`, `Misc.CrossAntiCommutative` and `Misc.Lagrange` |
| Misc.TriangleNormal | misc.h:43-48 | the triangle normal as written, with second edge `v2 + v0`; the `Misc.TriangleNormal...` rows and the finding below are about it |
| Misc.DotSymmetric | misc.h:18-21 | the dot product is symmetric |
| Misc.DotSelfNonNeg | misc.h:18-21 | `v . v >= 0` |
| Misc.DotSelfZeroIff | misc.h:18-21 | `v . v == 0` exactly when `v` is the zero vector |
| Misc.DotNonZero | misc.h:18-21 | a non-zero dot product needs two vectors of positive squared length |
| Misc.DotWIgnoresW | misc.h:22-25 | the `Vec3`/`Vec4` overload equals the `Vec3` dot product with x, y, z and does not depend on `w` |
| Misc.CrossOrthogonal | misc.h:35-41 | the cross product is orthogonal to both arguments |
| Misc.CrossAntiCommutative | misc.h:35-41 | `a x b == -(b x a)` and `a x a == 0` |
| Misc.Lagrange | misc.h:35-41 | Lagrange's identity `(a . a)(b . b) == (a . b)^2 + (a x b) . (a x b)` |
| Misc.CauchySchwarzUnit | misc.h:18-21 | for a unit `n`, `(n . v)^2 <= v . v` |
| Misc.Length | misc.h:50-53 | the length is non-negative, its square is `v . v`, and it is positive for a non-zero vector |
| Misc.Intersection | misc.h:26-33 | the divisor is zero exactly when the line is parallel to the plane; otherwise the point is on the plane and on the line through `v1` and `v2` |
| Misc.IntersectionOnPlane | misc.h:29-32 | the point at the computed parameter satisfies the plane equation |
| Misc.TriangleNormalFirstEdge | misc.h:43-48 | the normal as written is orthogonal to the edge `v1 - v0` |
| Misc.TriangleNormalMissesSecondEdge | misc.h:43-48 | for the triangle (1,0,0), (0,1,0), (0,0,1), the normal as written has dot product -2 with the edge `v2 - v0` |
| Misc.TriangleNormalDiscrepancy | misc.h:45-47 | the normal as written equals the edge normal plus `(v1 - v0) x 2 v0` |
| Misc.TriangleNormalOfEdgesOrthogonal | misc.h:43-48 | the normal from the two edges is orthogonal to all three edges |
| Scene.AddSphere | RayTracingCanvas.h:39-45 | one more sphere; the four sequences stay aligned exactly when they were; the new index holds the given entry; earlier entries and the lights are unchanged |
| Scene.AddLight | RayTracingCanvas.h:47-50 | the light is appended; earlier lights and all sphere sequences are unchanged |
| Scene.AddSpheresEntries | RayTracingCanvas.h:39-45 | adding spheres one by one to an empty scene gives an aligned scene whose entry `i` is the `i`-th sphere added |
| Intersect.Coefficients | RayTracingCanvas.h:253-257 | the coefficients `k1`, `k2`, `k3` of the ray-sphere quadratic; `Intersect.OnSphereQuadratic` and `Intersect.LeadingZero` state what they mean |
| Intersect.Consider | RayTracingCanvas.h:231-243 | one iteration of the nearest-hit loop: `t1`, then `t2`, replaces the current hit when it is strictly inside the window and below it; `Intersect.Closest` and `Intersect.FindClosestLoop` carry its properties |
| Intersect.Solve | RayTracingCanvas.h:259-269 | no roots exactly when the discriminant is negative; roots that no window test accepts (NaN, or an infinity next to a NaN) exactly when it is non-negative and `a == 0`; otherwise Vieta's relations hold, the roots coincide for a zero discriminant, and both solve the equation |
| Intersect.IntersectRaySphere | RayTracingCanvas.h:250-270 | the same three cases for the sphere's coefficients `k1`, `k2`, `k3` along the ray |
| Intersect.FormulaRoots | RayTracingCanvas.h:265-266 | the two values of the quadratic formula satisfy `t1 + t2 == -b/a`, `t1 t2 == c/a`, coincide for a zero discriminant, and solve the equation |
| Intersect.LeadingZero | RayTracingCanvas.h:254 | `k1 == 0` exactly for the zero direction |
| Intersect.NaNOnlyForZeroDirection | RayTracingCanvas.h:254-266 | the roots are NaN exactly when the direction is the zero vector |
| Intersect.OnSphereQuadratic | RayTracingCanvas.h:253-257 | along the ray, squared distance to the centre minus squared radius is the quadratic `k1 t^2 + k2 t + k3` |
| Intersect.IntersectionsOnSphere | RayTracingCanvas.h:253-268 | both reported roots are ray parameters at which the ray is on the sphere |
| Intersect.Closest | RayTracingCanvas.h:222-245 | the sentinel `(-1, max_t)` exactly when no root lies strictly inside the window; otherwise a valid index and a root of it strictly inside the window; no root in the window is smaller; spheres before the chosen one have no root in the window at or below it |
| Intersect.FindClosest | RayTracingCanvas.h:219-246 | the properties of `Closest` for the roots of every sphere in order |
| Intersect.FindClosestLoop | RayTracingCanvas.h:222-245 | the loop with a mutable nearest hit computes the same hit as the recursive definition |
| Intersect.RootsOfSphere | RayTracingCanvas.h:229 | the roots inspected for sphere `i` are those `intersect_ray_sphere` reports for it |
| Intersect.HitOnSphere | RayTracingCanvas.h:219-246 | a reported hit is a point on the sphere it names |
| Lighting.ReflectRay | RayTracingCanvas.h:161-164 | `reflect_ray`; its properties are in the `Lighting.Reflect...` rows |
| Lighting.Shadowed | RayTracingCanvas.h:121-131 | the shadow test: the nearest-hit search from the point towards the light, with the window from 0.01, finds a sphere |
| Lighting.LightStep | RayTracingCanvas.h:112-156 | one iteration of the light loop; `Lighting.StepAddsContribution` and `Lighting.Contribution` state what it adds |
| Lighting.ComputeLighting | RayTracingCanvas.h:107-159 | `compute_lighting`, the light loop from zero; `Lighting.LightingAppend`, `Lighting.LightingSplit`, `Lighting.LightingOrderFree`, `Lighting.ShadowedLeavesAmbient` and `Lighting.AmbientOnly` carry its properties |
| Lighting.ReflectKeepsNormalComponent | RayTracingCanvas.h:161-164 | for a unit normal, `n . reflect(n, r) == n . r` |
| Lighting.ReflectFlipsTangent | RayTracingCanvas.h:161-164 | reflection negates the cross product with the normal, so the part of the ray across the normal flips; with `Lighting.ReflectKeepsNormalComponent` this determines the reflected ray for a unit normal |
| Lighting.ReflectInvolution | RayTracingCanvas.h:161-164 | for a unit normal, reflecting twice gives back the ray |
| Lighting.ReflectKeepsLength | RayTracingCanvas.h:161-164 | for a unit normal, reflection keeps the squared length |
| Lighting.Diffuse | RayTracingCanvas.h:135-139 | when `n . L > 0`, `L` has positive length and the term is the intensity scaled by the positive factor `n . L / length(L)` |
| Lighting.DiffuseFactorAtMostOne | RayTracingCanvas.h:135-139 | for a unit normal, the diffuse factor is at most one |
| Lighting.Specular | RayTracingCanvas.h:142-154 | when `r . v > 0`, both lengths are non-zero and the term is the intensity scaled by `pow(r . v / (length(r) length(v)), specular)` |
| Lighting.SpecularLengths | RayTracingCanvas.h:142-148 | a positive `r . v` makes the product of the two lengths positive |
| Lighting.Contribution | RayTracingCanvas.h:114-155 | an ambient light adds its intensity; a shadowed non-ambient light adds nothing; an unshadowed non-ambient light adds the diffuse term exactly when `n . L > 0`, plus the specular term exactly when `r . v > 0` |
| Lighting.StepAddsContribution | RayTracingCanvas.h:112-156 | each loop iteration adds the light's own contribution to the running total |
| Lighting.LightingAppend | RayTracingCanvas.h:112-158 | appending a light adds its contribution to the result |
| Lighting.LightingSplit | RayTracingCanvas.h:110-158 | the result over two groups of lights is the sum of the results over each group |
| Lighting.LightingOrderFree | RayTracingCanvas.h:110-158 | swapping two groups of lights does not change the result |
| Lighting.ShadowedLeavesAmbient | RayTracingCanvas.h:114-131 | when every non-ambient light is shadowed, the result is the sum of the ambient intensities |
| Lighting.AmbientOnly | RayTracingCanvas.h:110-118 | with only ambient lights, the result is the sum of their intensities |
| Tracer.Trace | RayTracingCanvas.h:182-217 | the recursion of `trace_ray` for a given nearest-hit search; `Tracer.TraceReflects` and `Tracer.TraceComposite` state it |
| Tracer.TraceRay | RayTracingCanvas.h:182-217 | `trace_ray` on a scene; `Tracer.TraceRayMiss`, `Tracer.TraceRayLocal`, `Tracer.TraceRayReflects` and `Tracer.TraceRayComposite` state it |
| Tracer.NormalizedIsUnit | RayTracingCanvas.h:199-200 | a non-zero vector divided by its length has length one |
| Tracer.Shade | RayTracingCanvas.h:191-204 | at a hit, the point is `origin + t dir`; the normal is the outward unit vector parallel to the offset from the centre; the colour is the sphere's colour tinted by `compute_lighting` at that point with the sphere's specular exponent; the reflectivity is the sphere's |
| Tracer.ProbeRay | RayTracingCanvas.h:185-204 | the ray misses exactly when the nearest-hit search returns a negative index; otherwise the hit is on the sphere the search names and is shaded as `Shade` states for that sphere |
| Tracer.Path | RayTracingCanvas.h:182-217 | the nested calls number between 1 and `depth + 1`, and the first traces the given ray |
| Tracer.PathFollowsReflections | RayTracingCanvas.h:185-212 | every call sees what the nearest-hit search finds for its ray; each call but the last hit a reflective surface, and the next traces `reflect_ray(normal, -dir)` from the hit point with `min_t = 0.1`; the last call missed, hit a non-reflective surface or used up the depth |
| Tracer.TraceReflects | RayTracingCanvas.h:206-216 | at a reflective hit with depth left, the result blends the lit colour with the colour traced once more along `reflect_ray(normal, -dir)` from the hit point, with `min_t = 0.1` and depth minus one |
| Tracer.TraceRayReflects | RayTracingCanvas.h:206-216 | the same for `trace_ray` on a scene: exactly one further call, on the reflected ray |
| Tracer.CompositeCons | RayTracingCanvas.h:214-216 | a reflective surface blends its colour, weighted `1 - reflectivity`, with the colour behind it, weighted `reflectivity` |
| Tracer.TraceComposite | RayTracingCanvas.h:182-217 | the recursion equals the blend of colours along its path of nested calls |
| Tracer.TraceRayComposite | RayTracingCanvas.h:182-217 | `trace_ray` on a scene equals the blend of colours along its reflection path |
| Tracer.TraceRayMiss | RayTracingCanvas.h:185-189 | when no sphere has a root in the window, the result is black and no further ray is traced |
| Tracer.TraceRayLocal | RayTracingCanvas.h:206-209 | on a non-reflective surface or at depth zero, the result is the lit colour and no further ray is traced |
| Canvas.CanvasToViewport | RayTracingCanvas.h:97-105 | the point lies on the projection plane `z == 1`; x times the width and y times the height give back the pixel coordinates times the viewport size |
| Canvas.ViewportBounds | RayTracingCanvas.h:64-78 | every pixel `draw` visits maps into `[-1/2, 1/2)` on both axes |
| Canvas.CombineChannel | RayTracingCanvas.h:168-174 | a product below one gives 0, a product of at least 256 gives 255, and otherwise the channel is the product truncated toward zero |
| Canvas.CombineColorAndIntensity | RayTracingCanvas.h:166-180 | each channel is its product with its own intensity component, clamped: 0 below one, 255 from 256 on, and in between the product truncated toward zero |
| Canvas.CombineFullIntensity | RayTracingCanvas.h:166-180 | full intensity `(1, 1, 1)` leaves the colour unchanged |
| Canvas.CombineZeroIntensity | RayTracingCanvas.h:166-180 | zero intensity gives black |
| Canvas.CombineChannelMonotone | RayTracingCanvas.h:168-174 | a larger intensity never gives a smaller channel |
| Canvas.Column | RayTracingCanvas.h:70-72 | one column has `top - bottom` pixels, the `k`-th at row `bottom + k` |
| Canvas.ColumnsLength | RayTracingCanvas.h:64-72 | there are `right - left` columns of `2 * half` pixels |
| Canvas.ColumnsMembers | RayTracingCanvas.h:64-72 | a pixel is visited exactly when it lies in the rectangle |
| Canvas.ColumnsIncreasing | RayTracingCanvas.h:68-72 | the visiting order is strictly increasing by column, then by row |
| Canvas.PixelsOnce | RayTracingCanvas.h:62-85 | `draw` visits `2 (width / 2) * 2 (height / 2)` pixels, exactly those of the rectangle, each once |
| Canvas.DrawColumn | RayTracingCanvas.h:70-83 | the inner loop produces one pixel per row of the column, in order, each with the colour computed for it |
| Canvas.DrawWith | RayTracingCanvas.h:62-85 | the two loops produce one pixel per visited position, in visiting order, each with the colour computed for it |
| Canvas.PrimaryRay | RayTracingCanvas.h:77-78 | the viewport point turned by the camera orientation, with the fourth component dropped |
| Canvas.PixelColor | RayTracingCanvas.h:77-79 | the colour traced from the camera along the primary ray, with `min_t = 1` and the maximal depth; `Canvas.Draw` puts it at every pixel |
| Canvas.Draw | RayTracingCanvas.h:62-85 | each pixel is traced from the camera through its rotated viewport point, with `min_t = 1` and the maximal recursion depth |

## Left out

- `put_pixel`, window creation and the whole of CanvasBase.h are left out: they are display I/O through SDL.
- main.cpp and `should_keep_rendering` (misc.h:12-17) are left out. They are the animation driver and event polling.
- `get_spheres` and `get_lights` are left out. They hand out mutable references that only the animation driver uses.
- `set_camera_position`, `set_camera_orientation` and the constructor are left out. Their state is the fields of the `Canvas` datatype.
- Integer widths are not modelled: canvas sizes and sphere counts are unbounded, so the narrowing casts to `int` of `_width / 2` and `_height / 2` (RayTracingCanvas.h:65-66) and of the sphere count (line 226) are assumed to keep their values.
- IEEE-754 rounding is not modelled: all arithmetic is exact over the reals. `std::numeric_limits<float>::max()` is the exact real `FloatMax`.
- Mat.h, Color.h, Sphere.h and Plane.h are not part of this model. They are represented as follows:
  - the orientation matrix is a function from `Vec3` to `Vec4`;
  - the colour operators are the `ColorOps` parameter;
  - a colour is three bytes;
  - a sphere is a centre and a radius, and a plane is a normal and a distance.
- `std::pow` is unconstrained, so nothing is proved about the size of the specular term.
- Misc.Intersection: a zero divisor gives `Parallel`, where the source returns a point with non-finite coordinates.
- Intersect.IntersectRaySphere: the NaN roots of the zero direction are the `NaNPair` case. The nearest-hit search never selects it, just as every comparison with NaN is false in the source.
- Intersect.Closest: when `t1 == t2`, taking `t1` over `t2` is indistinguishable by value, so the model cannot observe that tie-break.
- Tracer.TraceRay: requires every sphere radius to be non-zero (`WellFormed`). Otherwise a hit at the centre divides the zero normal by its zero length.
- Canvas.CanvasToViewport: requires a non-zero width and height. `draw` only calls it on canvases at least two pixels wide and high.
- Canvas.CombineChannel: products at or below -1 give 0 and products of 256 or more give 255. In the source, converting a float at or below -1, or at or above 2^32, to `unsigned int` is undefined behaviour. For a product in (-1, 0) the conversion is defined and yields 0, as in the model. The source's `< 0` tests are always false for an unsigned value.
- `combine_color_and_intensity` is modelled on its own. No modelled code calls it: `trace_ray` tints with `Color`'s own `*` operator, which is the `ColorOps.tint` parameter.

## Findings

| source | as written | input that shows it | evidently intended | confidence | as-written member | corrected member |
|---|---|---|---|---|---|---|
| misc.h:46 | the second edge is `v2 + v0` | triangle (1,0,0), (0,1,0), (0,0,1): the normal is (1,1,-1), whose dot product with the edge `v2 - v0 = (-1,0,1)` is -2 | the second edge `v2 - v0`, so that the normal is orthogonal to the triangle | high (not executed) | Misc.TriangleNormalMissesSecondEdge | Misc.TriangleNormalOfEdgesOrthogonal |

=== FILE: canvas.dfy ===
/** The canvas side of the renderer: mapping pixels to viewport directions,
    turning a colour and an RGB intensity into a colour, and the order in
    which `draw` traces one ray per pixel. */
module Canvas {
  import opened Vec
  import opened Cmath
  import opened Scene
  import opened Tracer

  /** The side of the square viewport, in scene units. */
  const ViewportSize: real := 1.0

  /** The distance from the camera to the viewport; also the lower end of
      the window for primary rays. */
  const ProjectionPlaneZ: real := 1.0

  /** The renderer's own state besides the scene: the canvas size in pixels,
      the camera, and the maximal reflection depth. The camera orientation
      matrix is only ever applied to a vector, so it is that product. */
  datatype Canvas = Canvas(
    width: nat,
    height: nat,
    camera: Vec3,
    orientation: Vec3 -> Vec4,
    maxRecursion: nat)

  /** `canvas_to_viewport`: pixel `pt` scaled into the viewport, on the
      projection plane. `x` is divided by the width and `y` by the height. */
  function CanvasToViewport(c: Canvas, pt: Vec2i): (r: Vec3)
    requires 0 < c.width && 0 < c.height
    ensures r.z == ProjectionPlaneZ
    ensures r.x * (c.width as real) == (pt.x as real) * ViewportSize
    ensures r.y * (c.height as real) == (pt.y as real) * ViewportSize
  {
    Vec3((pt.x as real) * ViewportSize / (c.width as real),
         (pt.y as real) * ViewportSize / (c.height as real),
         ProjectionPlaneZ)
  }

  /** Every pixel `draw` visits maps into the viewport square centred on the
      optical axis. */
  lemma ViewportBounds(c: Canvas, pt: Vec2i)
    requires 0 < c.width && 0 < c.height
    requires -(c.width / 2) <= pt.x < c.width / 2
    requires -(c.height / 2) <= pt.y < c.height / 2
    ensures -ViewportSize / 2.0 <= CanvasToViewport(c, pt).x < ViewportSize / 2.0
    ensures -ViewportSize / 2.0 <= CanvasToViewport(c, pt).y < ViewportSize / 2.0
  {
    HalfBounds(c.width, pt.x, CanvasToViewport(c, pt).x);
    HalfBounds(c.height, pt.y, CanvasToViewport(c, pt).y);
  }

  /** A coordinate between minus half and half a side, divided by the side. */
  lemma HalfBounds(n: nat, k: int, v: real)
    requires 0 < n && -(n / 2) <= k < n / 2
    requires v * (n as real) == k as real
    ensures -0.5 <= v < 0.5
  {
    assert 2 * (n / 2) <= n;
    assert -(n as real) <= 2.0 * (k as real) < n as real;
    QuotientAbove(n as real, k as real, v);
    QuotientBelow(n as real, k as real, v);
  }

  lemma QuotientAbove(side: real, k: real, v: real)
    requires 0.0 < side && v * side == k && -side <= 2.0 * k
    ensures -0.5 <= v
  {
    if v < -0.5 {
      MulPos(-0.5 - v, side);
      assert false;
    }
  }

  lemma QuotientBelow(side: real, k: real, v: real)
    requires 0.0 < side && v * side == k && 2.0 * k < side
    ensures v < 0.5
  {
    if 0.5 <= v {
      MulNonNeg(v - 0.5, side);
      assert false;
    }
  }

  /** `r` is the product `p` clamped to a byte: zero below one, 255 from 256
      on, and in between the whole part of `p`. */
  predicate Clamped(p: real, r: Channel)
  {
    && (p < 1.0 ==> r == 0)
    && (256.0 <= p ==> r == 255)
    && (0.0 <= p < 256.0 ==> r as real <= p < (r as real) + 1.0)
  }

  /** One channel of `combine_color_and_intensity`: the product of the
      channel and the intensity, truncated toward zero and clamped to a
      byte. */
  function CombineChannel(v: Channel, k: real): (r: Channel)
    ensures Clamped((v as real) * k, r)
  {
    var p := (v as real) * k;
    if p < 0.0 then 0
    else if 255 < p.Floor then 255
    else p.Floor
  }

  /** `combine_color_and_intensity`, channel by channel. */
  function CombineColorAndIntensity(c: Color, i: Vec3): (r: Color)
    ensures Clamped((c.r as real) * i.x, r.r)
    ensures Clamped((c.g as real) * i.y, r.g)
    ensures Clamped((c.b as real) * i.z, r.b)
  {
    Color(CombineChannel(c.r, i.x), CombineChannel(c.g, i.y), CombineChannel(c.b, i.z))
  }

  /** Full intensity leaves a colour as it is. */
  lemma CombineFullIntensity(c: Color)
    ensures CombineColorAndIntensity(c, Vec3(1.0, 1.0, 1.0)) == c
  {
  }

  /** Zero intensity gives black. */
  lemma CombineZeroIntensity(c: Color)
    ensures CombineColorAndIntensity(c, Zero) == Black
  {
  }

  /** A brighter intensity never gives a darker channel. */
  lemma CombineChannelMonotone(v: Channel, k1: real, k2: real)
    requires k1 <= k2
    ensures CombineChannel(v, k1) <= CombineChannel(v, k2)
  {
    MulNonNeg(v as real, k2 - k1);
    assert (v as real) * (k2 - k1) == (v as real) * k2 - (v as real) * k1;
    var p1, p2 := (v as real) * k1, (v as real) * k2;
    assert p1.Floor <= p2.Floor;
  }

  /** The pixels of column `x` from row `bottom` up to but not including
      row `top`, in the order `draw` visits them. */
  function Column(x: int, bottom: int, top: int): (ps: seq<Vec2i>)
    ensures |ps| == if bottom <= top then top - bottom else 0
    ensures forall k :: 0 <= k < |ps| ==> ps[k] == Vec2i(x, bottom + k)
    decreases top - bottom
  {
    if top <= bottom then [] else Column(x, bottom, top - 1) + [Vec2i(x, top - 1)]
  }

  /** The pixels of columns `left` up to but not including `right`, each
      from row `-half` up to but not including row `half`. */
  function Columns(left: int, right: int, half: int): seq<Vec2i>
    decreases right - left
  {
    if right <= left then [] else Columns(left, right - 1, half) + Column(right - 1, -half, half)
  }

  /** There are `right - left` columns of `2 * half` pixels. */
  lemma {:induction false} ColumnsLength(left: int, right: int, half: nat)
    requires left <= right
    ensures |Columns(left, right, half)| == (right - left) * (2 * half)
    decreases right - left
  {
    if left < right {
      ColumnsLength(left, right - 1, half);
      assert (right - left) * (2 * half) == (right - 1 - left) * (2 * half) + 2 * half;
    }
  }

  /** The pixels are exactly those of the rectangle. */
  lemma {:induction false} ColumnsMembers(left: int, right: int, half: int, p: Vec2i)
    ensures p in Columns(left, right, half) <==> left <= p.x < right && -half <= p.y < half
    decreases right - left
  {
    if left < right {
      ColumnsMembers(left, right - 1, half, p);
      var col := Column(right - 1, -half, half);
      if p.x == right - 1 && -half <= p.y < half {
        assert col[p.y + half] == p;
      }
    }
  }

  /** The pixel positions `draw` visits, in order: columns from left to
      right, each from bottom to top, over half the width and half the
      height on either side of the centre. */
  function Pixels(c: Canvas): seq<Vec2i>
  {
    Columns(-(c.width / 2), c.width / 2, c.height / 2)
  }

  /** The direction of the primary ray through pixel `pos`: its viewport
      point turned by the camera orientation, with the fourth component
      dropped. */
  function PrimaryRay(c: Canvas, pos: Vec2i): Vec3
    requires 0 < c.width && 0 < c.height
  {
    var d := c.orientation(CanvasToViewport(c, pos));
    Vec3(d.x, d.y, d.z)
  }

  /** The colour `draw` puts at pixel `pos`: the primary ray traced from the
      camera, starting at the projection plane, with the full reflection
      depth. */
  function PixelColor(m: MathLib, ops: ColorOps, c: Canvas, scene: Scene, pos: Vec2i): Color
    requires Lawful(m) && WellFormed(scene)
    requires 0 < c.width && 0 < c.height
  {
    TraceRay(m, ops, scene, c.camera, PrimaryRay(c, pos), ProjectionPlaneZ, c.maxRecursion)
  }

  /** One `put_pixel` call. */
  datatype Pixel = Pixel(pos: Vec2i, color: Color)

  /** The colour of `px` is the one traced for its position. */
  predicate Painted(m: MathLib, ops: ColorOps, c: Canvas, scene: Scene, px: Pixel)
    requires Lawful(m) && WellFormed(scene)
  {
    0 < c.width && 0 < c.height && px.color == PixelColor(m, ops, c, scene, px.pos)
  }

  /** The pixel colours of one scene on a canvas with pixels. */
  function Shader(m: MathLib, ops: ColorOps, c: Canvas, scene: Scene): Vec2i -> Color
    requires Lawful(m) && WellFormed(scene)
    requires 0 < c.width && 0 < c.height
  {
    (pos: Vec2i) => PixelColor(m, ops, c, scene, pos)
  }

  /** `draw`, with the `put_pixel` calls collected in order. A canvas less
      than two pixels wide or high has no pixel to visit, and then no colour
      is computed at all. */
  method Draw(m: MathLib, ops: ColorOps, c: Canvas, scene: Scene) returns (frame: seq<Pixel>)
    requires Lawful(m) && WellFormed(scene)
    ensures |frame| == |Pixels(c)|
    ensures forall k :: 0 <= k < |frame| ==> frame[k].pos == Pixels(c)[k] && Painted(m, ops, c, scene, frame[k])
  {
    if c.width / 2 == 0 || c.height / 2 == 0 {
      ColumnsLength(-(c.width / 2), c.width / 2, c.height / 2);
      frame := [];
    } else {
      var shade := Shader(m, ops, c, scene);
      frame := DrawWith(c, shade);
      forall k | 0 <= k < |frame|
        ensures frame[k].pos == Pixels(c)[k] && Painted(m, ops, c, scene, frame[k])
      {
        assert frame[k].color == shade(frame[k].pos);
      }
    }
  }

  /** The two loops of `draw` for pixel colours `shade`. */
  method DrawWith(c: Canvas, shade: Vec2i -> Color) returns (frame: seq<Pixel>)
    ensures |frame| == |Pixels(c)|
    ensures forall k :: 0 <= k < |frame| ==> frame[k] == Pixel(Pixels(c)[k], shade(Pixels(c)[k]))
  {
    var halfWidth: int := c.width / 2;
    var halfHeight: int := c.height / 2;
    frame := [];
    var x := -halfWidth;
    while x < halfWidth
      invariant -halfWidth <= x <= halfWidth
      invariant |frame| == |Columns(-halfWidth, x, halfHeight)|
      invariant forall k :: 0 <= k < |frame| ==>
                  frame[k] == Pixel(Columns(-halfWidth, x, halfHeight)[k], shade(Columns(-halfWidth, x, halfHeight)[k]))
      decreases halfWidth - x
    {
      var column := DrawColumn(c, shade, x);
      ghost var done := Columns(-halfWidth, x, halfHeight);
      ghost var next := Columns(-halfWidth, x + 1, halfHeight);
      assert next == done + Column(x, -halfHeight, halfHeight);
      ghost var prev := frame;
      frame := frame + column;
      forall k | 0 <= k < |frame|
        ensures frame[k] == Pixel(next[k], shade(next[k]))
      {
        if k < |prev| {
          assert frame[k] == prev[k] && next[k] == done[k];
        } else {
          assert frame[k] == column[k - |prev|] && next[k] == Column(x, -halfHeight, halfHeight)[k - |prev|];
        }
      }
      x := x + 1;
    }
    assert Columns(-halfWidth, x, halfHeight) == Pixels(c);
  }

  /** The inner loop of `draw`: one column of pixels, bottom to top. */
  method DrawColumn(c: Canvas, shade: Vec2i -> Color, x: int) returns (column: seq<Pixel>)
    ensures |column| == |Column(x, -(c.height / 2), c.height / 2)|
    ensures forall k :: 0 <= k < |column| ==>
              column[k] == Pixel(Column(x, -(c.height / 2), c.height / 2)[k], shade(Column(x, -(c.height / 2), c.height / 2)[k]))
  {
    var halfHeight: int := c.height / 2;
    column := [];
    var y := -halfHeight;
    while y < halfHeight
      invariant -halfHeight <= y <= halfHeight
      invariant |column| == y + halfHeight
      invariant forall k :: 0 <= k < |column| ==> column[k] == Pixel(Vec2i(x, k - halfHeight), shade(Vec2i(x, k - halfHeight)))
      decreases halfHeight - y
    {
      var pos := Vec2i(x, y);
      column := column + [Pixel(pos, shade(pos))];
      y := y + 1;
    }
  }

  /** `a` comes before `b` in the visiting order. */
  predicate Before(a: Vec2i, b: Vec2i)
  {
    a.x < b.x || (a.x == b.x && a.y < b.y)
  }

  predicate Increasing(ps: seq<Vec2i>)
  {
    forall i, j :: 0 <= i < j < |ps| ==> Before(ps[i], ps[j])
  }

  /** The visiting order is strictly increasing, column first. */
  lemma {:induction false} ColumnsIncreasing(left: int, right: int, half: int)
    ensures Increasing(Columns(left, right, half))
    decreases right - left
  {
    if left < right {
      var a := Columns(left, right - 1, half);
      var b := Column(right - 1, -half, half);
      ColumnsIncreasing(left, right - 1, half);
      forall i, j | 0 <= i < j < |a + b|
        ensures Before((a + b)[i], (a + b)[j])
      {
        if j < |a| {
        } else if i < |a| {
          ColumnsMembers(left, right - 1, half, a[i]);
        }
      }
    }
  }

  /** Every pixel of the drawn rectangle is visited exactly once, and nothing
      else is: there are `2 * (width / 2)` columns of `2 * (height / 2)`
      pixels, all distinct, covering exactly the rectangle. */
  lemma PixelsOnce(c: Canvas)
    ensures |Pixels(c)| == (2 * (c.width / 2)) * (2 * (c.height / 2))
    ensures forall p :: p in Pixels(c) <==>
              -(c.width / 2) <= p.x < c.width / 2 && -(c.height / 2) <= p.y < c.height / 2
    ensures forall i, j :: 0 <= i < j < |Pixels(c)| ==> Pixels(c)[i] != Pixels(c)[j]
  {
    var halfWidth: int := c.width / 2;
    ColumnsLength(-halfWidth, halfWidth, c.height / 2);
    forall p | true
      ensures p in Pixels(c) <==> -halfWidth <= p.x < halfWidth && -(c.height / 2) <= p.y < c.height / 2
    {
      ColumnsMembers(-halfWidth, halfWidth, c.height / 2, p);
    }
    ColumnsIncreasing(-halfWidth, halfWidth, c.height / 2);
  }
}

=== FILE: cmath.dfy ===
/** The two functions the renderer takes from <cmath>. Their floating-point
    implementations are not modelled: a `MathLib` value supplies them, and
    `Lawful` states the only facts the model relies on. */
module Cmath {

  /** `sqrt` and `pow` as supplied functions; `pow` is left unconstrained. */
  datatype MathLib = MathLib(sqrt: real -> real, pow: (real, real) -> real)

  /** `sqrt` returns the non-negative square root of a non-negative argument. */
  ghost predicate Lawful(m: MathLib)
  {
    forall x :: 0.0 <= x ==> 0.0 <= m.sqrt(x) && m.sqrt(x) * m.sqrt(x) == x
  }

  /** `std::numeric_limits<float>::max()`, the far end of every primary and
      shadow ray: (2 - 2^-23) * 2^127. */
  const FloatMax: real := 340282346638528859811704183484516925440.0

  /** The square root of zero is zero, and of a positive number is positive. */
  lemma SqrtSign(m: MathLib, x: real)
    requires Lawful(m)
    requires 0.0 <= x
    ensures x == 0.0 ==> m.sqrt(x) == 0.0
    ensures 0.0 < x ==> 0.0 < m.sqrt(x)
  {
    var s := m.sqrt(x);
    assert 0.0 <= s && s * s == x;
    if x == 0.0 {
      SquareZero(s);
    }
  }

  /** A product is zero only when a factor is. */
  lemma ZeroProduct(a: real, b: real)
    requires a * b == 0.0
    ensures a == 0.0 || b == 0.0
  {
  }

  /** Only zero squares to zero. */
  lemma SquareZero(a: real)
    requires a * a == 0.0
    ensures a == 0.0
  {
    ZeroProduct(a, a);
  }

  /** Three squares add up to zero only when each is zero. */
  lemma SquaresZero(a: real, b: real, c: real)
    requires a * a + b * b + c * c == 0.0
    ensures a * a == 0.0 && b * b == 0.0 && c * c == 0.0
  {
  }

  /** The product of two positive numbers is positive. Stated for two
      arguments so that it also applies to two different expressions with
      the same value, where the solver would not recognise a square. */
  lemma MulPos(a: real, b: real)
    requires 0.0 < a && 0.0 < b
    ensures 0.0 < a * b
  {
  }

  /** The product of two non-negative numbers is non-negative. */
  lemma MulNonNeg(a: real, b: real)
    requires 0.0 <= a && 0.0 <= b
    ensures 0.0 <= a * b
  {
  }

  /** Among non-negative numbers, squares are ordered as the numbers are. */
  lemma SquareMonotone(x: real, y: real)
    requires 0.0 <= x && 0.0 <= y && x * x <= y * y
    ensures x <= y
  {
    if y < x {
      MulPos(x - y, x + y);
      assert false;
    }
  }
}

=== FILE: intersect.dfy ===
/** Ray-sphere intersection and the nearest-hit search over all spheres. */
module Intersect {
  import opened Vec
  import opened Cmath
  import opened Misc
  import opened Scene

  /** The point `origin + t * dir` on a ray. */
  function RayAt(origin: Vec3, dir: Vec3, t: real): Vec3
  {
    Add(origin, Scale(t, dir))
  }

  predicate OnSphere(p: Vec3, s: Sphere)
  {
    Dot(Sub(p, s.center), Sub(p, s.center)) == s.radius * s.radius
  }

  /** The coefficients of `a t^2 + b t + c == 0`, whose roots are the ray
      parameters at which the ray meets the sphere. */
  datatype Quadratic = Quadratic(a: real, b: real, c: real)

  function Coefficients(origin: Vec3, dir: Vec3, s: Sphere): Quadratic
  {
    var co := Sub(origin, s.center);
    Quadratic(Dot(dir, dir), 2.0 * Dot(co, dir), Dot(co, co) - s.radius * s.radius)
  }

  function Discriminant(q: Quadratic): real
  {
    q.b * q.b - 4.0 * q.a * q.c
  }

  /** What `intersect_ray_sphere` reports. `NaNPair` is the case of a zero
      leading coefficient, whose roots no window test accepts: the function
      still reports an intersection, but every comparison with them fails.
      For a sphere it arises only from the zero direction, where both roots
      are `0 / 0`. */
  datatype Roots =
    | NoRoots
    | NaNPair
    | Pair(t1: real, t2: real)

  /** The quadratic formula as `intersect_ray_sphere` evaluates it: no roots
      for a negative discriminant, otherwise `(-b +- sqrt(d)) / 2a`. When `a`
      is zero this divides by zero and gives roots that no window test
      accepts (NaN, or an infinity next to a NaN). */
  function Solve(m: MathLib, q: Quadratic): (r: Roots)
    requires Lawful(m)
    ensures r.NoRoots? <==> Discriminant(q) < 0.0
    ensures r.NaNPair? <==> 0.0 <= Discriminant(q) && q.a == 0.0
    ensures r.Pair? ==> PairFacts(q, r.t1, r.t2)
  {
    var d := Discriminant(q);
    if d < 0.0 then
      NoRoots
    else if q.a == 0.0 then
      NaNPair
    else
      var t1 := (-q.b + m.sqrt(d)) / (2.0 * q.a);
      var t2 := (-q.b - m.sqrt(d)) / (2.0 * q.a);
      FormulaRoots(m, q, t1, t2);
      Pair(t1, t2)
  }

  /** `intersect_ray_sphere`: the roots of the sphere's quadratic along the
      ray. A zero direction is the only way to get NaN roots. */
  function IntersectRaySphere(m: MathLib, origin: Vec3, dir: Vec3, s: Sphere): (r: Roots)
    requires Lawful(m)
    ensures r.NoRoots? <==> Discriminant(Coefficients(origin, dir, s)) < 0.0
    ensures r.NaNPair? <==> 0.0 <= Discriminant(Coefficients(origin, dir, s)) && Coefficients(origin, dir, s).a == 0.0
    ensures r.Pair? ==> PairFacts(Coefficients(origin, dir, s), r.t1, r.t2)
  {
    Solve(m, Coefficients(origin, dir, s))
  }

  /** The leading coefficient vanishes exactly for the zero direction. */
  lemma LeadingZero(origin: Vec3, dir: Vec3, s: Sphere)
    ensures Coefficients(origin, dir, s).a == 0.0 <==> dir == Zero
  {
    DotSelfZeroIff(dir);
  }

  /** The roots are NaN exactly when the direction is the zero vector. */
  lemma NaNOnlyForZeroDirection(m: MathLib, origin: Vec3, dir: Vec3, s: Sphere)
    requires Lawful(m)
    ensures IntersectRaySphere(m, origin, dir, s).NaNPair? <==> dir == Zero
  {
    LeadingZero(origin, dir, s);
    if dir == Zero {
      ZeroDirectionDiscriminant(origin, s);
    }
  }

  lemma ZeroDirectionDiscriminant(origin: Vec3, s: Sphere)
    ensures Discriminant(Coefficients(origin, Zero, s)) == 0.0
  {
    DotWithZero(Sub(origin, s.center));
    DotWithZero(Zero);
    NoLinearTerms(Coefficients(origin, Zero, s));
  }

  lemma NoLinearTerms(q: Quadratic)
    requires q.a == 0.0 && q.b == 0.0
    ensures Discriminant(q) == 0.0
  {
  }

  /** Both reported roots are ray parameters at which the ray is on the
      sphere. */
  lemma IntersectionsOnSphere(m: MathLib, origin: Vec3, dir: Vec3, s: Sphere)
    requires Lawful(m)
    ensures var r := IntersectRaySphere(m, origin, dir, s);
            r.Pair? ==> OnSphere(RayAt(origin, dir, r.t1), s) && OnSphere(RayAt(origin, dir, r.t2), s)
  {
    var r := IntersectRaySphere(m, origin, dir, s);
    if r.Pair? {
      RootOnSphere(origin, dir, s, r.t1);
      RootOnSphere(origin, dir, s, r.t2);
    }
  }

  /** Vieta's relations for roots `t1`, `t2` of `a t^2 + b t + c`, which
      coincide when the discriminant is zero. */
  ghost predicate PairFacts(q: Quadratic, t1: real, t2: real)
  {
    && q.a != 0.0
    && t1 + t2 == -q.b / q.a
    && t1 * t2 == q.c / q.a
    && (Discriminant(q) == 0.0 ==> t1 == t2)
    && q.a * t1 * t1 + q.b * t1 + q.c == 0.0
    && q.a * t2 * t2 + q.b * t2 + q.c == 0.0
  }

  /** The two values of the quadratic formula. */
  lemma FormulaRoots(m: MathLib, q: Quadratic, t1: real, t2: real)
    requires Lawful(m) && q.a != 0.0 && 0.0 <= Discriminant(q)
    requires t1 == (-q.b + m.sqrt(Discriminant(q))) / (2.0 * q.a)
    requires t2 == (-q.b - m.sqrt(Discriminant(q))) / (2.0 * q.a)
    ensures PairFacts(q, t1, t2)
  {
    var s := m.sqrt(Discriminant(q));
    SqrtSign(m, Discriminant(q));
    DivMul(-q.b + s, 2.0 * q.a);
    DivMul(-q.b - s, 2.0 * q.a);
    VietaSum(q.a, q.b, s, t1, t2);
    VietaProduct(q.a, q.b, q.c, s, t1, t2);
    MulToDiv(t1 + t2, q.a, -q.b);
    MulToDiv(t1 * t2, q.a, q.c);
    RootSolves(q.a, q.b, q.c, s, t1);
    RootSolves(q.a, q.b, q.c, s, t2);
  }

  lemma DivMul(y: real, d: real)
    requires d != 0.0
    ensures (y / d) * d == y
  {
  }

  lemma MulToDiv(x: real, a: real, y: real)
    requires a != 0.0 && a * x == y
    ensures x == y / a
  {
  }

  lemma VietaSum(a: real, b: real, s: real, t1: real, t2: real)
    requires t1 * (2.0 * a) == -b + s && t2 * (2.0 * a) == -b - s
    ensures a * (t1 + t2) == -b
  {
  }

  lemma VietaProduct(a: real, b: real, c: real, s: real, t1: real, t2: real)
    requires a != 0.0 && s * s == b * b - 4.0 * a * c
    requires t1 * (2.0 * a) == -b + s && t2 * (2.0 * a) == -b - s
    ensures a * (t1 * t2) == c
  {
    assert (t1 * (2.0 * a)) * (t2 * (2.0 * a)) == 4.0 * a * c;
    assert 4.0 * a * (a * (t1 * t2) - c) == 0.0;
    ZeroProduct(4.0 * a, a * (t1 * t2) - c);
  }

  /** Each value of the quadratic formula solves the equation. */
  lemma RootSolves(a: real, b: real, c: real, s: real, t: real)
    requires a != 0.0 && s * s == b * b - 4.0 * a * c
    requires t * (2.0 * a) == -b + s || t * (2.0 * a) == -b - s
    ensures a * t * t + b * t + c == 0.0
  {
    var u := 2.0 * a * t + b;
    assert u == s || u == -s;
    assert u * u == s * s;
    assert 4.0 * a * (a * t * t + b * t + c) == 0.0;
    ZeroProduct(4.0 * a, a * t * t + b * t + c);
  }

  /** A root of the quadratic is a ray parameter at which the ray is on the
      sphere. */
  lemma RootOnSphere(origin: Vec3, dir: Vec3, s: Sphere, t: real)
    requires var q := Coefficients(origin, dir, s); q.a * t * t + q.b * t + q.c == 0.0
    ensures OnSphere(RayAt(origin, dir, t), s)
  {
    OnSphereQuadratic(origin, dir, s, t);
  }

  /** Along a ray, the squared distance to the centre minus the squared radius
      is the quadratic of the coefficients. */
  lemma OnSphereQuadratic(origin: Vec3, dir: Vec3, s: Sphere, t: real)
    ensures var q := Coefficients(origin, dir, s);
            Dot(Sub(RayAt(origin, dir, t), s.center), Sub(RayAt(origin, dir, t), s.center)) - s.radius * s.radius
            == q.a * t * t + q.b * t + q.c
  {
  }

  /** The result of the nearest-hit search: a sphere index, or -1 for none,
      and a ray parameter. */
  datatype Hit = Hit(index: int, t: real)

  /** Some reported root lies strictly between `lo` and `hi`. */
  predicate HasRootIn(r: Roots, lo: real, hi: real)
  {
    r.Pair? && ((lo < r.t1 && r.t1 < hi) || (lo < r.t2 && r.t2 < hi))
  }

  predicate IsRootOf(r: Roots, t: real)
  {
    r.Pair? && (t == r.t1 || t == r.t2)
  }

  /** No reported root above `lo` is smaller than `bound`. */
  predicate NoRootBelow(r: Roots, lo: real, bound: real)
  {
    r.Pair? ==> (lo < r.t1 ==> bound <= r.t1) && (lo < r.t2 ==> bound <= r.t2)
  }

  /** No reported root above `lo` is smaller than or equal to `bound`. */
  predicate NoRootUpTo(r: Roots, lo: real, bound: real)
  {
    r.Pair? ==> (lo < r.t1 ==> bound < r.t1) && (lo < r.t2 ==> bound < r.t2)
  }

  /** One iteration of the search loop: try `t1`, then `t2`, each replacing
      the current hit when strictly nearer and strictly above `minT`. */
  function Consider(h: Hit, i: int, r: Roots, minT: real): Hit
  {
    match r
    case Pair(t1, t2) =>
      var h1 := if t1 < h.t && t1 > minT then Hit(i, t1) else h;
      if t2 < h1.t && t2 > minT then Hit(i, t2) else h1
    case _ => h
  }

  /** The search over a sequence of reported roots, visiting them in order.
      The result is the sentinel `(-1, maxT)` exactly when no root lies in the
      open window; otherwise it is a root in the window, no root in the window
      is smaller, and every sphere before the chosen one has only larger
      roots in the window, so ties go to the lowest index. */
  function Closest(rs: seq<Roots>, minT: real, maxT: real): (h: Hit)
    ensures h.index == -1 <==> forall i :: 0 <= i < |rs| ==> !HasRootIn(rs[i], minT, maxT)
    ensures h.index == -1 ==> h.t == maxT
    ensures h.index != -1 ==> 0 <= h.index < |rs| && minT < h.t < maxT && IsRootOf(rs[h.index], h.t)
    ensures h.t <= maxT
    ensures forall i :: 0 <= i < |rs| ==> NoRootBelow(rs[i], minT, h.t)
    ensures forall i :: 0 <= i < h.index ==> NoRootUpTo(rs[i], minT, h.t)
  {
    if |rs| == 0 then
      Hit(-1, maxT)
    else
      var prev := Closest(rs[..|rs| - 1], minT, maxT);
      assert forall i :: 0 <= i < |rs| - 1 ==> rs[..|rs| - 1][i] == rs[i];
      Consider(prev, |rs| - 1, rs[|rs| - 1], minT)
  }

  /** The roots of every sphere along the ray, in sphere order. */
  function AllRoots(m: MathLib, spheres: seq<Sphere>, origin: Vec3, dir: Vec3): seq<Roots>
    requires Lawful(m)
  {
    seq(|spheres|, i requires 0 <= i < |spheres| => IntersectRaySphere(m, origin, dir, spheres[i]))
  }

  /** `find_closest_sphere_intersection`: `Closest` over the roots of every
      sphere in order. */
  function FindClosest(m: MathLib, spheres: seq<Sphere>, origin: Vec3, dir: Vec3, minT: real, maxT: real): (h: Hit)
    requires Lawful(m)
    ensures var rs := AllRoots(m, spheres, origin, dir);
      && (h.index == -1 <==> forall i :: 0 <= i < |spheres| ==> !HasRootIn(rs[i], minT, maxT))
      && (h.index == -1 ==> h.t == maxT)
      && (h.index != -1 ==> 0 <= h.index < |spheres| && minT < h.t < maxT && IsRootOf(rs[h.index], h.t))
      && (forall i :: 0 <= i < |spheres| ==> NoRootBelow(rs[i], minT, h.t))
      && (forall i :: 0 <= i < h.index ==> NoRootUpTo(rs[i], minT, h.t))
  {
    Closest(AllRoots(m, spheres, origin, dir), minT, maxT)
  }

  /** Entry `i` of `AllRoots` is what `intersect_ray_sphere` reports for
      sphere `i`. */
  lemma RootsOfSphere(m: MathLib, spheres: seq<Sphere>, origin: Vec3, dir: Vec3, i: int)
    requires Lawful(m) && 0 <= i < |spheres|
    ensures AllRoots(m, spheres, origin, dir)[i] == IntersectRaySphere(m, origin, dir, spheres[i])
  {
  }

  /** A hit is a point on the sphere it names. */
  lemma HitOnSphere(m: MathLib, spheres: seq<Sphere>, origin: Vec3, dir: Vec3, minT: real, maxT: real)
    requires Lawful(m)
    ensures var h := FindClosest(m, spheres, origin, dir, minT, maxT);
            h.index != -1 ==> 0 <= h.index < |spheres| && OnSphere(RayAt(origin, dir, h.t), spheres[h.index])
  {
    var h := FindClosest(m, spheres, origin, dir, minT, maxT);
    if h.index != -1 {
      RootsOfSphere(m, spheres, origin, dir, h.index);
      IntersectionsOnSphere(m, origin, dir, spheres[h.index]);
    }
  }

  /** The search loop as written, with a mutable nearest hit; it computes the
      same hit as the recursive definition. */
  method FindClosestLoop(m: MathLib, spheres: seq<Sphere>, origin: Vec3, dir: Vec3, minT: real, maxT: real)
    returns (h: Hit)
    requires Lawful(m)
    ensures h == FindClosest(m, spheres, origin, dir, minT, maxT)
  {
    var rs := AllRoots(m, spheres, origin, dir);
    h := Hit(-1, maxT);
    var i := 0;
    while i < |spheres|
      invariant 0 <= i <= |spheres|
      invariant h == Closest(rs[..i], minT, maxT)
    {
      var r := IntersectRaySphere(m, origin, dir, spheres[i]);
      assert rs[..i + 1][..i] == rs[..i];
      h := Consider(h, i, r, minT);
      i := i + 1;
    }
    assert rs[..|spheres|] == rs;
  }
}

=== FILE: lighting.dfy ===
/** Mirror reflection and the per-light accumulation of `compute_lighting`. */
module Lighting {
  import opened Vec
  import opened Cmath
  import opened Misc
  import opened Lights
  import opened Scene
  import opened Intersect

  /** `reflect_ray`: the mirror image of `r` about the direction `n`. */
  function ReflectRay(n: Vec3, r: Vec3): Vec3
  {
    Sub(Scale(2.0 * Dot(n, r), n), r)
  }

  lemma DotScaleRight(n: Vec3, k: real, v: Vec3)
    ensures Dot(n, Scale(k, v)) == k * Dot(n, v)
  {
  }

  /** About a unit normal, reflection keeps the component along the normal. */
  lemma ReflectKeepsNormalComponent(n: Vec3, r: Vec3)
    requires Dot(n, n) == 1.0
    ensures Dot(n, ReflectRay(n, r)) == Dot(n, r)
  {
    DotSubRight(n, Scale(2.0 * Dot(n, r), n), r);
    DotScaleRight(n, 2.0 * Dot(n, r), n);
  }

  /** About a unit normal, reflecting twice gives back the original ray. */
  lemma ReflectInvolution(n: Vec3, r: Vec3)
    requires Dot(n, n) == 1.0
    ensures ReflectRay(n, ReflectRay(n, r)) == r
  {
    ReflectKeepsNormalComponent(n, r);
  }

  /** About a unit normal, reflection keeps the length of the ray. */
  lemma ReflectKeepsLength(n: Vec3, r: Vec3)
    requires Dot(n, n) == 1.0
    ensures Dot(ReflectRay(n, r), ReflectRay(n, r)) == Dot(r, r)
  {
    var k := 2.0 * Dot(n, r);
    DotOfDifference(Scale(k, n), r);
    DotScaleBoth(k, n);
    DotScaleRight(r, k, n);
    DotSymmetric(r, n);
    DotSymmetric(Scale(k, n), r);
  }

  /** Reflection flips the part of the ray across the normal: its cross
      product with the normal changes sign. For a unit normal this and
      `ReflectKeepsNormalComponent` together determine the reflected ray. */
  lemma ReflectFlipsTangent(n: Vec3, r: Vec3)
    ensures Cross(n, ReflectRay(n, r)) == Neg(Cross(n, r))
  {
    CrossSubScaled(n, 2.0 * Dot(n, r), r);
  }

  lemma CrossSubScaled(n: Vec3, k: real, r: Vec3)
    ensures Cross(n, Sub(Scale(k, n), r)) == Neg(Cross(n, r))
  {
  }

  lemma DotOfDifference(a: Vec3, b: Vec3)
    ensures Dot(Sub(a, b), Sub(a, b)) == Dot(a, a) - 2.0 * Dot(a, b) + Dot(b, b)
  {
  }

  lemma DotScaleBoth(k: real, n: Vec3)
    ensures Dot(Scale(k, n), Scale(k, n)) == k * k * Dot(n, n)
  {
  }

  /** The lower end of the shadow ray's window. */
  const ShadowMinT: real := 0.01

  /** The vector from `point` towards the light: the offset to a point
      light's position, or a directional light's stored direction. */
  function LightVector(l: Light, point: Vec3): Vec3
  {
    if l.kind == Point then Sub(l.position, point) else l.position
  }

  /** Some sphere lies on the shadow ray from `point` towards the light. */
  predicate Shadowed(m: MathLib, spheres: seq<Sphere>, point: Vec3, l: Light)
    requires Lawful(m)
  {
    FindClosest(m, spheres, point, LightVector(l, point), ShadowMinT, FloatMax).index >= 0
  }

  /** The diffuse term for a light the surface faces: the intensity scaled
      by `n . L / |L|`, a positive factor. */
  function Diffuse(m: MathLib, normal: Vec3, lv: Vec3, intensity: Vec3): (r: Vec3)
    requires Lawful(m) && 0.0 < Dot(normal, lv)
    ensures 0.0 < Length(m, lv)
    ensures 0.0 < Dot(normal, lv) / Length(m, lv)
    ensures r == Scale(Dot(normal, lv) / Length(m, lv), intensity)
  {
    DotNonZero(normal, lv);
    Div(Scale(Dot(normal, lv), intensity), Length(m, lv))
  }

  /** With a unit normal, the diffuse factor `n . L / |L|` is the cosine of
      the angle of incidence and so at most one: a light never adds more
      than its own intensity through the diffuse term. */
  lemma DiffuseFactorAtMostOne(m: MathLib, normal: Vec3, lv: Vec3)
    requires Lawful(m) && Dot(normal, normal) == 1.0 && 0.0 < Dot(normal, lv)
    ensures 0.0 < Length(m, lv)
    ensures Dot(normal, lv) / Length(m, lv) <= 1.0
  {
    DotNonZero(normal, lv);
    CauchySchwarzUnit(normal, lv);
    SquareMonotone(Dot(normal, lv), Length(m, lv));
  }

  /** `r . v` for the reflected light vector and the direction back to the
      viewer, as the specular test computes it. */
  function SpecularDot(normal: Vec3, lv: Vec3, dir: Vec3): real
  {
    Dot(ReflectRay(normal, lv), Scale(-1.0, dir))
  }

  /** The specular term for a light whose reflection points at the viewer:
      the intensity scaled by `pow(cos, specular)`, where `cos` is `r . v`
      over the lengths of the reflected ray and the view direction. */
  function Specular(m: MathLib, normal: Vec3, lv: Vec3, dir: Vec3, specular: real, intensity: Vec3): (r: Vec3)
    requires Lawful(m) && 0.0 < SpecularDot(normal, lv, dir)
    ensures 0.0 < Length(m, ReflectRay(normal, lv)) * Length(m, dir)
    ensures r == Scale(m.pow(SpecularDot(normal, lv, dir)
                             / (Length(m, ReflectRay(normal, lv)) * Length(m, dir)), specular), intensity)
  {
    SpecularLengths(m, normal, lv, dir);
    Scale(m.pow(SpecularDot(normal, lv, dir)
                / (Length(m, ReflectRay(normal, lv)) * Length(m, dir)), specular), intensity)
  }

  /** The specular term when the reflection points at the viewer, and
      nothing otherwise. */
  function SpecularPart(m: MathLib, normal: Vec3, lv: Vec3, dir: Vec3, specular: real, intensity: Vec3): Vec3
    requires Lawful(m)
  {
    if 0.0 < SpecularDot(normal, lv, dir) then Specular(m, normal, lv, dir, specular, intensity) else Zero
  }

  /** A positive `r . v` needs a non-zero reflected ray and view direction. */
  lemma SpecularLengths(m: MathLib, normal: Vec3, lv: Vec3, dir: Vec3)
    requires Lawful(m) && 0.0 < SpecularDot(normal, lv, dir)
    ensures 0.0 < Length(m, ReflectRay(normal, lv)) * Length(m, dir)
  {
    var rv := ReflectRay(normal, lv);
    DotScaleRight(rv, -1.0, dir);
    DotNonZero(rv, dir);
    MulPos(Length(m, rv), Length(m, dir));
  }

  /** One iteration of the light loop of `compute_lighting`: an ambient light
      adds its intensity; any other light adds nothing when shadowed, and
      otherwise adds the diffuse term when the surface faces it and the
      specular term when its reflection points at the viewer. */
  function LightStep(m: MathLib, spheres: seq<Sphere>, point: Vec3, normal: Vec3, dir: Vec3,
                     specular: real, acc: Vec3, l: Light): Vec3
    requires Lawful(m)
  {
    if l.kind == Ambient then
      Add(acc, l.intensity)
    else if Shadowed(m, spheres, point, l) then
      acc
    else
      var lv := LightVector(l, point);
      var withDiffuse :=
        if 0.0 < Dot(normal, lv) then Add(acc, Diffuse(m, normal, lv, l.intensity)) else acc;
      if 0.0 < SpecularDot(normal, lv, dir) then
        Add(withDiffuse, Specular(m, normal, lv, dir, specular, l.intensity))
      else
        withDiffuse
  }

  /** `compute_lighting`: the light loop run from zero over the lights in
      order. */
  function ComputeLighting(m: MathLib, spheres: seq<Sphere>, point: Vec3, normal: Vec3, dir: Vec3,
                           specular: real, lights: seq<Light>): Vec3
    requires Lawful(m)
  {
    if |lights| == 0 then
      Zero
    else
      LightStep(m, spheres, point, normal, dir, specular,
                ComputeLighting(m, spheres, point, normal, dir, specular, lights[..|lights| - 1]),
                lights[|lights| - 1])
  }

  /** What one light adds, whatever has been accumulated before it. */
  function Contribution(m: MathLib, spheres: seq<Sphere>, point: Vec3, normal: Vec3, dir: Vec3,
                        specular: real, l: Light): (r: Vec3)
    requires Lawful(m)
    ensures l.kind == Ambient ==> r == l.intensity
    ensures l.kind != Ambient && Shadowed(m, spheres, point, l) ==> r == Zero
    ensures (&& l.kind != Ambient
             && Dot(normal, LightVector(l, point)) <= 0.0
             && SpecularDot(normal, LightVector(l, point), dir) <= 0.0) ==> r == Zero
    ensures (&& l.kind != Ambient && !Shadowed(m, spheres, point, l)
             && Dot(normal, LightVector(l, point)) <= 0.0)
            ==> r == SpecularPart(m, normal, LightVector(l, point), dir, specular, l.intensity)
    ensures (&& l.kind != Ambient && !Shadowed(m, spheres, point, l)
             && 0.0 < Dot(normal, LightVector(l, point)))
            ==> r == Add(Diffuse(m, normal, LightVector(l, point), l.intensity),
                         SpecularPart(m, normal, LightVector(l, point), dir, specular, l.intensity))
  {
    AddZero(l.intensity);
    LightStep(m, spheres, point, normal, dir, specular, Zero, l)
  }

  /** Each step adds the light's contribution to the running total. */
  lemma StepAddsContribution(m: MathLib, spheres: seq<Sphere>, point: Vec3, normal: Vec3, dir: Vec3,
                             specular: real, acc: Vec3, l: Light)
    requires Lawful(m)
    ensures LightStep(m, spheres, point, normal, dir, specular, acc, l)
         == Add(acc, Contribution(m, spheres, point, normal, dir, specular, l))
  {
    AddZero(acc);
    if l.kind != Ambient && !Shadowed(m, spheres, point, l) {
      var lv := LightVector(l, point);
      if 0.0 < Dot(normal, lv) && 0.0 < SpecularDot(normal, lv, dir) {
        AddAssociative(acc, Diffuse(m, normal, lv, l.intensity),
                       Specular(m, normal, lv, dir, specular, l.intensity));
        AddZero(Diffuse(m, normal, lv, l.intensity));
      } else if 0.0 < Dot(normal, lv) {
        AddZero(Diffuse(m, normal, lv, l.intensity));
      } else if 0.0 < SpecularDot(normal, lv, dir) {
        AddZero(Specular(m, normal, lv, dir, specular, l.intensity));
      }
    }
  }

  /** Appending a light adds its contribution to the result. */
  lemma LightingAppend(m: MathLib, spheres: seq<Sphere>, point: Vec3, normal: Vec3, dir: Vec3,
                       specular: real, lights: seq<Light>, l: Light)
    requires Lawful(m)
    ensures ComputeLighting(m, spheres, point, normal, dir, specular, lights + [l])
         == Add(ComputeLighting(m, spheres, point, normal, dir, specular, lights),
                Contribution(m, spheres, point, normal, dir, specular, l))
  {
    assert (lights + [l])[..|lights|] == lights;
    StepAddsContribution(m, spheres, point, normal, dir, specular,
                         ComputeLighting(m, spheres, point, normal, dir, specular, lights), l);
  }

  /** The result over two groups of lights is the sum of the results over
      each group. */
  lemma {:induction false} LightingSplit(m: MathLib, spheres: seq<Sphere>, point: Vec3, normal: Vec3,
                                         dir: Vec3, specular: real, a: seq<Light>, b: seq<Light>)
    requires Lawful(m)
    ensures ComputeLighting(m, spheres, point, normal, dir, specular, a + b)
         == Add(ComputeLighting(m, spheres, point, normal, dir, specular, a),
                ComputeLighting(m, spheres, point, normal, dir, specular, b))
    decreases |b|
  {
    var ca := ComputeLighting(m, spheres, point, normal, dir, specular, a);
    if |b| == 0 {
      assert a + b == a;
      AddZero(ca);
    } else {
      var init, last := b[..|b| - 1], b[|b| - 1];
      assert b == init + [last];
      assert a + b == (a + init) + [last];
      LightingSplit(m, spheres, point, normal, dir, specular, a, init);
      LightingAppend(m, spheres, point, normal, dir, specular, a + init, last);
      LightingAppend(m, spheres, point, normal, dir, specular, init, last);
      AddAssociative(ca, ComputeLighting(m, spheres, point, normal, dir, specular, init),
                     Contribution(m, spheres, point, normal, dir, specular, last));
    }
  }

  /** The order of the lights does not change the result. */
  lemma LightingOrderFree(m: MathLib, spheres: seq<Sphere>, point: Vec3, normal: Vec3, dir: Vec3,
                          specular: real, a: seq<Light>, b: seq<Light>)
    requires Lawful(m)
    ensures ComputeLighting(m, spheres, point, normal, dir, specular, a + b)
         == ComputeLighting(m, spheres, point, normal, dir, specular, b + a)
  {
    LightingSplit(m, spheres, point, normal, dir, specular, a, b);
    LightingSplit(m, spheres, point, normal, dir, specular, b, a);
    AddCommutative(ComputeLighting(m, spheres, point, normal, dir, specular, a),
                   ComputeLighting(m, spheres, point, normal, dir, specular, b));
  }

  /** The sum of the intensities of the ambient lights. */
  function AmbientSum(lights: seq<Light>): Vec3
  {
    if |lights| == 0 then
      Zero
    else if lights[|lights| - 1].kind == Ambient then
      Add(AmbientSum(lights[..|lights| - 1]), lights[|lights| - 1].intensity)
    else
      AmbientSum(lights[..|lights| - 1])
  }

  /** The sum of the intensities of all lights. */
  function IntensitySum(lights: seq<Light>): Vec3
  {
    if |lights| == 0 then Zero else Add(IntensitySum(lights[..|lights| - 1]), lights[|lights| - 1].intensity)
  }

  /** When every non-ambient light is shadowed, only the ambient lights
      contribute. */
  lemma {:induction false} ShadowedLeavesAmbient(m: MathLib, spheres: seq<Sphere>, point: Vec3, normal: Vec3,
                                                 dir: Vec3, specular: real, lights: seq<Light>)
    requires Lawful(m)
    requires forall i :: 0 <= i < |lights| && lights[i].kind != Ambient ==> Shadowed(m, spheres, point, lights[i])
    ensures ComputeLighting(m, spheres, point, normal, dir, specular, lights) == AmbientSum(lights)
  {
    if |lights| != 0 {
      var init := lights[..|lights| - 1];
      assert forall i :: 0 <= i < |init| ==> init[i] == lights[i];
      ShadowedLeavesAmbient(m, spheres, point, normal, dir, specular, init);
    }
  }

  /** With only ambient lights, the result is the sum of their intensities. */
  lemma {:induction false} AmbientOnly(m: MathLib, spheres: seq<Sphere>, point: Vec3, normal: Vec3,
                                       dir: Vec3, specular: real, lights: seq<Light>)
    requires Lawful(m)
    requires forall i :: 0 <= i < |lights| ==> lights[i].kind == Ambient
    ensures ComputeLighting(m, spheres, point, normal, dir, specular, lights) == IntensitySum(lights)
  {
    if |lights| != 0 {
      var init := lights[..|lights| - 1];
      assert forall i :: 0 <= i < |init| ==> init[i] == lights[i];
      AmbientOnly(m, spheres, point, normal, dir, specular, init);
    }
  }
}

=== FILE: lights.dfy ===
/** The light sources of Light.h. */
module Lights {
  import opened Vec

  /** The three kinds of light the renderer distinguishes. */
  datatype LightType = Ambient | Directional | Point

  /** A light: its kind, an RGB intensity, and a position. For a directional
      light the position field holds the direction towards the light; an
      ambient light ignores it. A light made without a position sits at the
      origin. */
  datatype Light = Light(kind: LightType, intensity: Vec3, position: Vec3)
}

=== FILE: misc.dfy ===
/** The free vector functions of misc.h: dot and cross products, length,
    the line-plane intersection and the triangle normal. */
module Misc {
  import opened Vec
  import opened Cmath

  /** A plane as the set of points p with `Dot(normal, p) + distance == 0`. */
  datatype Plane = Plane(normal: Vec3, distance: real)

  /** Outcome of intersecting the line through two points with a plane. */
  datatype Crossing =
    | Parallel      // the direction is parallel to the plane: the division has a zero divisor
    | At(point: Vec3)

  function Dot(a: Vec3, b: Vec3): real
  {
    a.x * b.x + a.y * b.y + a.z * b.z
  }

  /** The overload taking a `Vec4` on the right. */
  function DotW(a: Vec3, b: Vec4): real
  {
    a.x * b.x + a.y * b.y + a.z * b.z
  }

  function Cross(a: Vec3, b: Vec3): Vec3
  {
    Vec3(a.y * b.z - a.z * b.y,
         -(a.x * b.z - a.z * b.x),
         a.x * b.y - a.y * b.x)
  }

  /** Euclidean length: the non-negative square root of `Dot(v, v)`. */
  function Length(m: MathLib, v: Vec3): (r: real)
    requires Lawful(m)
    ensures 0.0 <= r && r * r == Dot(v, v)
    ensures 0.0 < Dot(v, v) ==> 0.0 < r
  {
    DotSelfNonNeg(v);
    SqrtSign(m, Dot(v, v));
    m.sqrt(Dot(v, v))
  }

  /** The point where the line through `v1` and `v2` meets plane `p`. */
  function Intersection(v1: Vec3, v2: Vec3, p: Plane): (r: Crossing)
    ensures r.Parallel? <==> Dot(p.normal, Sub(v2, v1)) == 0.0
    ensures r.At? ==> Dot(p.normal, r.point) + p.distance == 0.0
    ensures r.At? ==> Cross(Sub(r.point, v1), Sub(v2, v1)) == Zero
  {
    var num := -p.distance - Dot(p.normal, v1);
    var den := Dot(p.normal, Sub(v2, v1));
    if den == 0.0 then
      Parallel
    else
      var t := num / den;
      var q := Add(v1, Scale(t, Sub(v2, v1)));
      IntersectionOnPlane(v1, Sub(v2, v1), p, t);
      CrossScaledSelf(t, Sub(v2, v1));
      assert Sub(q, v1) == Scale(t, Sub(v2, v1));
      At(q)
  }

  /** The triangle normal as written: the cross product of `v1 - v0` with
      `v2 + v0`. */
  function TriangleNormal(v0: Vec3, v1: Vec3, v2: Vec3): Vec3
  {
    Cross(Sub(v1, v0), Add(v2, v0))
  }

  /** The triangle normal from the two edges `v1 - v0` and `v2 - v0`. */
  function TriangleNormalOfEdges(v0: Vec3, v1: Vec3, v2: Vec3): Vec3
  {
    Cross(Sub(v1, v0), Sub(v2, v0))
  }

  /** The normal as written is orthogonal to the first edge only. */
  lemma TriangleNormalFirstEdge(v0: Vec3, v1: Vec3, v2: Vec3)
    ensures Dot(TriangleNormal(v0, v1, v2), Sub(v1, v0)) == 0.0
  {
    CrossOrthogonal(Sub(v1, v0), Add(v2, v0));
    DotSymmetric(TriangleNormal(v0, v1, v2), Sub(v1, v0));
  }

  /** The normal from both edges is orthogonal to every edge of the triangle. */
  lemma TriangleNormalOfEdgesOrthogonal(v0: Vec3, v1: Vec3, v2: Vec3)
    ensures Dot(TriangleNormalOfEdges(v0, v1, v2), Sub(v1, v0)) == 0.0
    ensures Dot(TriangleNormalOfEdges(v0, v1, v2), Sub(v2, v0)) == 0.0
    ensures Dot(TriangleNormalOfEdges(v0, v1, v2), Sub(v2, v1)) == 0.0
  {
    var n := TriangleNormalOfEdges(v0, v1, v2);
    CrossOrthogonal(Sub(v1, v0), Sub(v2, v0));
    DotSymmetric(n, Sub(v1, v0));
    DotSymmetric(n, Sub(v2, v0));
    DotSubRight(n, Sub(v2, v0), Sub(v1, v0));
    assert Sub(v2, v1) == Sub(Sub(v2, v0), Sub(v1, v0));
  }

  /** The dot product distributes over a difference on the right. */
  lemma DotSubRight(n: Vec3, a: Vec3, b: Vec3)
    ensures Dot(n, Sub(a, b)) == Dot(n, a) - Dot(n, b)
  {
  }

  /** For the triangle (1,0,0), (0,1,0), (0,0,1) the normal as written,
      (1,1,-1), has dot product -2 with the edge from the first vertex to the
      third, so it is not a normal of the triangle. */
  lemma TriangleNormalMissesSecondEdge()
    ensures Dot(TriangleNormal(Vec3(1.0, 0.0, 0.0), Vec3(0.0, 1.0, 0.0), Vec3(0.0, 0.0, 1.0)),
                Sub(Vec3(0.0, 0.0, 1.0), Vec3(1.0, 0.0, 0.0))) == -2.0
  {
    UnitTriangleNormal();
    UnitTriangleSecondEdge();
    UnitTriangleDot();
  }

  lemma UnitTriangleNormal()
    ensures TriangleNormal(Vec3(1.0, 0.0, 0.0), Vec3(0.0, 1.0, 0.0), Vec3(0.0, 0.0, 1.0))
         == Vec3(1.0, 1.0, -1.0)
  {
    UnitTriangleFirstEdge();
    UnitTriangleSum();
    UnitTriangleCross();
  }

  lemma UnitTriangleDot()
    ensures Dot(Vec3(1.0, 1.0, -1.0), Vec3(-1.0, 0.0, 1.0)) == -2.0
  {
  }

  lemma UnitTriangleFirstEdge()
    ensures Sub(Vec3(0.0, 1.0, 0.0), Vec3(1.0, 0.0, 0.0)) == Vec3(-1.0, 1.0, 0.0)
  {
  }

  lemma UnitTriangleSecondEdge()
    ensures Sub(Vec3(0.0, 0.0, 1.0), Vec3(1.0, 0.0, 0.0)) == Vec3(-1.0, 0.0, 1.0)
  {
  }

  lemma UnitTriangleSum()
    ensures Add(Vec3(0.0, 0.0, 1.0), Vec3(1.0, 0.0, 0.0)) == Vec3(1.0, 0.0, 1.0)
  {
  }

  lemma UnitTriangleCross()
    ensures Cross(Vec3(-1.0, 1.0, 0.0), Vec3(1.0, 0.0, 1.0)) == Vec3(1.0, 1.0, -1.0)
  {
  }

  /** The normal as written differs from the normal of the two edges by the
      cross product of the first edge with twice the first vertex, so it is a
      normal of the triangle only when that term is zero. */
  lemma TriangleNormalDiscrepancy(v0: Vec3, v1: Vec3, v2: Vec3)
    ensures TriangleNormal(v0, v1, v2)
         == Add(TriangleNormalOfEdges(v0, v1, v2), Cross(Sub(v1, v0), Scale(2.0, v0)))
  {
  }

  lemma DotSymmetric(a: Vec3, b: Vec3)
    ensures Dot(a, b) == Dot(b, a)
  {
  }

  lemma DotSelfNonNeg(v: Vec3)
    ensures 0.0 <= Dot(v, v)
  {
  }

  /** The `Vec4` overload reads only x, y and z. */
  lemma DotWIgnoresW(a: Vec3, b: Vec4, w: real)
    ensures DotW(a, b) == Dot(a, Vec3(b.x, b.y, b.z))
    ensures DotW(a, b) == DotW(a, b.(w := w))
  {
  }

  lemma CrossOrthogonal(a: Vec3, b: Vec3)
    ensures Dot(a, Cross(a, b)) == 0.0
    ensures Dot(b, Cross(a, b)) == 0.0
  {
  }

  lemma CrossAntiCommutative(a: Vec3, b: Vec3)
    ensures Cross(a, b) == Neg(Cross(b, a))
    ensures Cross(a, a) == Zero
  {
  }

  lemma CrossScaledSelf(t: real, d: Vec3)
    ensures Cross(Scale(t, d), d) == Zero
  {
  }

  /** Lagrange's identity, with the mixed dot product written in both orders
      so that it reads as a product of two terms. */
  lemma Lagrange(a: Vec3, b: Vec3)
    ensures Dot(a, a) * Dot(b, b) == Dot(a, b) * Dot(b, a) + Dot(Cross(a, b), Cross(a, b))
  {
  }

  /** Cauchy-Schwarz for a unit vector: the square of `n . v` is at most
      `v . v`. */
  lemma CauchySchwarzUnit(n: Vec3, v: Vec3)
    requires Dot(n, n) == 1.0
    ensures Dot(n, v) * Dot(n, v) <= Dot(v, v)
  {
    Lagrange(n, v);
    DotSymmetric(v, n);
    DotSelfNonNeg(Cross(n, v));
  }

  /** Only the zero vector has a zero dot product with itself. */
  lemma DotSelfZero(v: Vec3)
    requires Dot(v, v) == 0.0
    ensures v == Zero
  {
    SquaresZero(v.x, v.y, v.z);
    SquareZero(v.x);
    SquareZero(v.y);
    SquareZero(v.z);
  }

  lemma DotSelfZeroIff(v: Vec3)
    ensures Dot(v, v) == 0.0 <==> v == Zero
  {
    if Dot(v, v) == 0.0 {
      DotSelfZero(v);
    }
    DotWithZero(v);
  }

  lemma DotWithZero(v: Vec3)
    ensures Dot(Zero, v) == 0.0 && Dot(v, Zero) == 0.0
  {
  }

  /** A non-zero dot product needs two non-zero vectors. */
  lemma DotNonZero(a: Vec3, b: Vec3)
    requires Dot(a, b) != 0.0
    ensures 0.0 < Dot(a, a) && 0.0 < Dot(b, b)
  {
    DotSelfNonNeg(a);
    DotSelfNonNeg(b);
    if Dot(a, a) == 0.0 {
      DotSelfZero(a);
      DotWithZero(b);
      assert false;
    }
    if Dot(b, b) == 0.0 {
      DotSelfZero(b);
      DotWithZero(a);
      assert false;
    }
  }

  /** The point `v1 + t * d` is on plane `p` when `t` solves the plane
      equation along `d`. */
  lemma IntersectionOnPlane(v1: Vec3, d: Vec3, p: Plane, t: real)
    requires Dot(p.normal, d) != 0.0
    requires t == (-p.distance - Dot(p.normal, v1)) / Dot(p.normal, d)
    ensures Dot(p.normal, Add(v1, Scale(t, d))) + p.distance == 0.0
  {
    var den := Dot(p.normal, d);
    assert t * den == -p.distance - Dot(p.normal, v1);
    assert Dot(p.normal, Add(v1, Scale(t, d))) == Dot(p.normal, v1) + t * den;
  }
}

=== FILE: scene.dfy ===
/** The scene state the renderer keeps: spheres with their material
    properties in four parallel sequences, and a sequence of lights. */
module Scene {
  import opened Vec
  import opened Lights

  /** One byte of colour. */
  type Channel = x: int | 0 <= x < 256

  datatype Color = Color(r: Channel, g: Channel, b: Channel)

  const Black: Color := Color(0, 0, 0)

  datatype Sphere = Sphere(center: Vec3, radius: real)

  /** Everything `add_sphere` records about one sphere. */
  datatype Entry = Entry(sphere: Sphere, color: Color, specular: real, reflectivity: real)

  datatype Scene = Scene(
    spheres: seq<Sphere>,
    colors: seq<Color>,
    speculars: seq<real>,
    reflectivities: seq<real>,
    lights: seq<Light>)

  const Empty: Scene := Scene([], [], [], [], [])

  /** The four per-sphere sequences have the same length. */
  predicate Aligned(s: Scene)
  {
    |s.colors| == |s.spheres| &&
    |s.speculars| == |s.spheres| &&
    |s.reflectivities| == |s.spheres|
  }

  /** The entry at index `i`, read across the four sequences. */
  function EntryAt(s: Scene, i: nat): Entry
    requires Aligned(s) && i < |s.spheres|
  {
    Entry(s.spheres[i], s.colors[i], s.speculars[i], s.reflectivities[i])
  }

  /** `add_sphere`: pushes one element onto each of the four sequences. */
  function AddSphere(s: Scene, e: Entry): (r: Scene)
    ensures Aligned(r) <==> Aligned(s)
    ensures |r.spheres| == |s.spheres| + 1
    ensures r.lights == s.lights
    ensures Aligned(s) ==> EntryAt(r, |s.spheres|) == e
    ensures Aligned(s) ==> forall i :: 0 <= i < |s.spheres| ==> EntryAt(r, i) == EntryAt(s, i)
  {
    Scene(s.spheres + [e.sphere], s.colors + [e.color],
          s.speculars + [e.specular], s.reflectivities + [e.reflectivity], s.lights)
  }

  /** `add_light`: appends one light. */
  function AddLight(s: Scene, l: Light): (r: Scene)
    ensures |r.lights| == |s.lights| + 1 && r.lights[|s.lights|] == l
    ensures r.lights[..|s.lights|] == s.lights
    ensures r.spheres == s.spheres && r.colors == s.colors
    ensures r.speculars == s.speculars && r.reflectivities == s.reflectivities
  {
    s.(lights := s.lights + [l])
  }

  /** The scene obtained by adding the given spheres in order. */
  function AddSpheres(s: Scene, es: seq<Entry>): Scene
  {
    if |es| == 0 then s else AddSphere(AddSpheres(s, es[..|es| - 1]), es[|es| - 1])
  }

  /** Adding spheres one by one to an empty scene gives an aligned scene whose
      entry `i` is the `i`-th sphere added. */
  lemma {:induction false} AddSpheresEntries(es: seq<Entry>)
    ensures Aligned(AddSpheres(Empty, es))
    ensures |AddSpheres(Empty, es).spheres| == |es|
    ensures forall i :: 0 <= i < |es| ==> EntryAt(AddSpheres(Empty, es), i) == es[i]
  {
    if |es| != 0 {
      AddSpheresEntries(es[..|es| - 1]);
    }
  }
}

=== FILE: tracer.dfy ===
/** The recursive ray tracer `trace_ray`, and a reference reading of it as a
    blend of colours along a path of mirror reflections. */
module Tracer {
  import opened Vec
  import opened Cmath
  import opened Misc
  import opened Scene
  import opened Intersect
  import opened Lighting

  /** The colour operators the tracer uses: tinting by an RGB intensity,
      scaling by a factor, and adding two colours. Their definitions are not
      part of this model. */
  datatype ColorOps = ColorOps(
    tint: (Color, Vec3) -> Color,
    scale: (Color, real) -> Color,
    add: (Color, Color) -> Color)

  /** The lower end of the window for reflected rays. */
  const ReflectionMinT: real := 0.1

  /** An aligned scene without zero-radius spheres, so that every hit has a
      well-defined surface normal. */
  predicate WellFormed(s: Scene)
  {
    Aligned(s) && forall i :: 0 <= i < |s.spheres| ==> s.spheres[i].radius != 0.0
  }

  /** What `trace_ray` computes at a hit: the point, the unit surface normal,
      the lit colour of the surface, and the sphere's reflectivity. */
  datatype Shading = Shading(point: Vec3, normal: Vec3, local: Color, reflectivity: real)

  /** A non-zero vector divided by its length has length one. */
  lemma NormalizedIsUnit(m: MathLib, v: Vec3)
    requires Lawful(m) && 0.0 < Dot(v, v)
    ensures 0.0 < Length(m, v)
    ensures Dot(Div(v, Length(m, v)), Div(v, Length(m, v))) == 1.0
  {
    var k := Length(m, v);
    var x := Dot(Div(v, k), Div(v, k));
    DotDivBoth(v, k);
    assert (x - 1.0) * (k * k) == 0.0;
    ZeroProduct(x - 1.0, k * k);
    if k * k == 0.0 {
      SquareZero(k);
      assert false;
    }
  }

  lemma DotDivBoth(v: Vec3, k: real)
    requires k != 0.0
    ensures Dot(Div(v, k), Div(v, k)) * (k * k) == Dot(v, v)
  {
  }

  /** The offset from the centre of a sphere of non-zero radius to a point on
      it is not the zero vector. */
  lemma SurfaceOffsetNonZero(p: Vec3, s: Sphere)
    requires OnSphere(p, s) && s.radius != 0.0
    ensures 0.0 < Dot(Sub(p, s.center), Sub(p, s.center))
  {
    DotSelfNonNeg(Sub(p, s.center));
    if s.radius * s.radius == 0.0 {
      SquareZero(s.radius);
      assert false;
    }
  }

  /** The shading step of `trace_ray` for a hit on sphere `h.index`. */
  function Shade(m: MathLib, ops: ColorOps, scene: Scene, origin: Vec3, dir: Vec3, h: Hit): (sh: Shading)
    requires Lawful(m) && WellFormed(scene)
    requires 0 <= h.index < |scene.spheres|
    requires OnSphere(RayAt(origin, dir, h.t), scene.spheres[h.index])
    ensures sh.point == RayAt(origin, dir, h.t)
    ensures Dot(sh.normal, sh.normal) == 1.0
    ensures Cross(sh.normal, Sub(sh.point, scene.spheres[h.index].center)) == Zero
    ensures 0.0 < Dot(sh.normal, Sub(sh.point, scene.spheres[h.index].center))
    ensures sh.local == ops.tint(scene.colors[h.index],
                                 ComputeLighting(m, scene.spheres, sh.point, sh.normal, dir,
                                                 scene.speculars[h.index], scene.lights))
    ensures sh.reflectivity == scene.reflectivities[h.index]
  {
    var sphere := scene.spheres[h.index];
    var point := RayAt(origin, dir, h.t);
    var offset := Sub(point, sphere.center);
    SurfaceOffsetNonZero(point, sphere);
    NormalizedIsUnit(m, offset);
    var normal := Div(offset, Length(m, offset));
    CrossScaledSelf(1.0 / Length(m, offset), offset);
    assert normal == Scale(1.0 / Length(m, offset), offset);
    OutwardNormal(m, offset);
    var intensity := ComputeLighting(m, scene.spheres, point, normal, dir, scene.speculars[h.index], scene.lights);
    Shading(point, normal, ops.tint(scene.colors[h.index], intensity), scene.reflectivities[h.index])
  }

  /** A non-zero vector divided by its length points the same way. */
  lemma OutwardNormal(m: MathLib, v: Vec3)
    requires Lawful(m) && 0.0 < Dot(v, v)
    ensures 0.0 < Length(m, v)
    ensures 0.0 < Dot(Div(v, Length(m, v)), v)
  {
    var k := Length(m, v);
    NormalizedIsUnit(m, v);
    assert Dot(Div(v, k), v) * k == Dot(v, v);
    if Dot(Div(v, k), v) <= 0.0 {
      MulNonNeg(-Dot(Div(v, k), v), k);
      assert false;
    }
  }

  /** The first thing a ray meets: nothing, or a surface with its shading. */
  datatype Probe = Missed | Struck(sh: Shading)

  /** The nearest-hit search and shading that open `trace_ray`. */
  function ProbeRay(m: MathLib, ops: ColorOps, scene: Scene, origin: Vec3, dir: Vec3, minT: real): (p: Probe)
    requires Lawful(m) && WellFormed(scene)
    ensures p.Missed? <==> FindClosest(m, scene.spheres, origin, dir, minT, FloatMax).index < 0
    ensures p.Struck? ==> Dot(p.sh.normal, p.sh.normal) == 1.0
    ensures p.Struck? ==>
              var h := FindClosest(m, scene.spheres, origin, dir, minT, FloatMax);
              && 0 <= h.index < |scene.spheres|
              && OnSphere(RayAt(origin, dir, h.t), scene.spheres[h.index])
              && p.sh == Shade(m, ops, scene, origin, dir, h)
  {
    var h := FindClosest(m, scene.spheres, origin, dir, minT, FloatMax);
    if h.index < 0 then
      Missed
    else
      HitOnSphere(m, scene.spheres, origin, dir, minT, FloatMax);
      Struck(Shade(m, ops, scene, origin, dir, h))
  }

  /** The nearest-hit search and shading of one scene, as a function of the
      ray's origin, direction and lower end of the window. */
  function Prober(m: MathLib, ops: ColorOps, scene: Scene): (Vec3, Vec3, real) -> Probe
    requires Lawful(m) && WellFormed(scene)
  {
    (origin: Vec3, dir: Vec3, minT: real) => ProbeRay(m, ops, scene, origin, dir, minT)
  }

  /** The recursion of `trace_ray` for a given nearest-hit search `probe`:
      black when the ray misses; the lit colour of the nearest surface when
      it is not reflective or the depth is used up; otherwise that colour
      blended with the colour seen along the mirror reflection, traced once
      more with one less level of depth. */
  function Trace(ops: ColorOps, probe: (Vec3, Vec3, real) -> Probe, origin: Vec3, dir: Vec3,
                 minT: real, depth: nat): Color
    decreases depth
  {
    match probe(origin, dir, minT)
    case Missed => Black
    case Struck(sh) =>
      if sh.reflectivity <= 0.0 || depth == 0 then
        sh.local
      else
        var reflected := Trace(ops, probe, sh.point, ReflectRay(sh.normal, Neg(dir)),
                               ReflectionMinT, depth - 1);
        ops.add(ops.scale(sh.local, 1.0 - sh.reflectivity), ops.scale(reflected, sh.reflectivity))
  }

  /** `trace_ray` on a scene. */
  function TraceRay(m: MathLib, ops: ColorOps, scene: Scene, origin: Vec3, dir: Vec3,
                    minT: real, depth: nat): Color
    requires Lawful(m) && WellFormed(scene)
  {
    Trace(ops, Prober(m, ops, scene), origin, dir, minT, depth)
  }

  /** The arguments of one `trace_ray` call: the ray's origin and direction,
      and the lower end of its window. */
  datatype Ray = Ray(origin: Vec3, dir: Vec3, minT: real)

  /** One call of `trace_ray` along a reflection path: the ray it traced and
      what that ray met. */
  datatype Visit = Visit(ray: Ray, seen: Probe)

  /** The visits of the nested `trace_ray` calls, outermost first: at most
      `depth + 1` of them, the first for the given ray. */
  function Path(probe: (Vec3, Vec3, real) -> Probe, origin: Vec3, dir: Vec3,
                minT: real, depth: nat): (p: seq<Visit>)
    ensures 1 <= |p| <= depth + 1
    ensures p[0].ray == Ray(origin, dir, minT)
    decreases depth
  {
    var v := Visit(Ray(origin, dir, minT), probe(origin, dir, minT));
    match v.seen
    case Missed => [v]
    case Struck(sh) =>
      if sh.reflectivity <= 0.0 || depth == 0 then
        [v]
      else
        [v] + Path(probe, sh.point, ReflectRay(sh.normal, Neg(dir)), ReflectionMinT, depth - 1)
  }

  /** Visit `i` saw what `probe` finds for its ray. */
  predicate Probed(probe: (Vec3, Vec3, real) -> Probe, p: seq<Visit>, i: nat)
    requires i < |p|
  {
    p[i].seen == probe(p[i].ray.origin, p[i].ray.dir, p[i].ray.minT)
  }

  /** Visit `i` hit a reflective surface and visit `i + 1` traces the mirror
      reflection of visit `i`'s direction about the surface normal, from the
      hit point, with the window starting at `ReflectionMinT`. */
  predicate Bounced(p: seq<Visit>, i: nat)
    requires i + 1 < |p|
  {
    && p[i].seen.Struck? && 0.0 < p[i].seen.sh.reflectivity
    && p[i + 1].ray == Ray(p[i].seen.sh.point, ReflectRay(p[i].seen.sh.normal, Neg(p[i].ray.dir)), ReflectionMinT)
  }

  /** The path follows the reflections: every visit sees what `probe` finds
      for its ray, each visit but the last bounces into the next, and the
      last one missed, hit a non-reflective surface, or used up the depth. */
  lemma {:induction false} PathFollowsReflections(probe: (Vec3, Vec3, real) -> Probe, origin: Vec3, dir: Vec3,
                                                  minT: real, depth: nat)
    ensures var p := Path(probe, origin, dir, minT, depth);
            && (forall i: nat :: i < |p| ==> Probed(probe, p, i))
            && (forall i: nat :: i + 1 < |p| ==> Bounced(p, i))
            && (p[|p| - 1].seen.Missed? || p[|p| - 1].seen.sh.reflectivity <= 0.0 || |p| == depth + 1)
    decreases depth
  {
    var p := Path(probe, origin, dir, minT, depth);
    match probe(origin, dir, minT)
    case Missed =>
    case Struck(sh) =>
      if 0.0 < sh.reflectivity && depth != 0 {
        var rest := Path(probe, sh.point, ReflectRay(sh.normal, Neg(dir)), ReflectionMinT, depth - 1);
        PathFollowsReflections(probe, sh.point, ReflectRay(sh.normal, Neg(dir)), ReflectionMinT, depth - 1);
        assert p == [p[0]] + rest;
        forall i: nat | i < |p|
          ensures Probed(probe, p, i)
        {
          if 0 < i {
            assert p[i] == rest[i - 1] && Probed(probe, rest, i - 1);
          }
        }
        forall i: nat | i + 1 < |p|
          ensures Bounced(p, i)
        {
          if 0 < i {
            assert p[i] == rest[i - 1] && p[i + 1] == rest[i] && Bounced(rest, i - 1);
          }
        }
        assert p[|p| - 1] == rest[|rest| - 1];
      }
  }

  /** The colour of a path, blended from the innermost visit outwards. */
  function Composite(ops: ColorOps, p: seq<Visit>): Color
    requires 1 <= |p|
  {
    match p[0].seen
    case Missed => Black
    case Struck(sh) =>
      if |p| == 1 then
        sh.local
      else
        ops.add(ops.scale(sh.local, 1.0 - sh.reflectivity),
                ops.scale(Composite(ops, p[1..]), sh.reflectivity))
  }

  /** A surface in front of a non-empty path blends its colour with the
      colour of the rest of the path. */
  lemma CompositeCons(ops: ColorOps, v: Visit, rest: seq<Visit>)
    requires v.seen.Struck? && 1 <= |rest|
    ensures Composite(ops, [v] + rest)
         == ops.add(ops.scale(v.seen.sh.local, 1.0 - v.seen.sh.reflectivity),
                    ops.scale(Composite(ops, rest), v.seen.sh.reflectivity))
  {
    assert ([v] + rest)[1..] == rest;
  }

  /** A hit on a reflective surface with depth left blends the lit colour of
      the surface with the colour traced once more, along the mirror
      reflection of the incoming direction, from the hit point, with the
      window starting at `ReflectionMinT` and one less level of depth. */
  lemma TraceReflects(ops: ColorOps, probe: (Vec3, Vec3, real) -> Probe, origin: Vec3, dir: Vec3,
                      minT: real, depth: nat)
    requires probe(origin, dir, minT).Struck? && 0.0 < probe(origin, dir, minT).sh.reflectivity && 0 < depth
    ensures var sh := probe(origin, dir, minT).sh;
            Trace(ops, probe, origin, dir, minT, depth)
              == ops.add(ops.scale(sh.local, 1.0 - sh.reflectivity),
                         ops.scale(Trace(ops, probe, sh.point, ReflectRay(sh.normal, Neg(dir)), ReflectionMinT, depth - 1),
                                   sh.reflectivity))
  {
  }

  /** `trace_ray` on a scene, at a reflective hit with depth left, traces
      exactly one more ray: the mirror reflection from the hit point. */
  lemma TraceRayReflects(m: MathLib, ops: ColorOps, scene: Scene, origin: Vec3, dir: Vec3,
                         minT: real, depth: nat)
    requires Lawful(m) && WellFormed(scene)
    requires var p := ProbeRay(m, ops, scene, origin, dir, minT);
             p.Struck? && 0.0 < p.sh.reflectivity && 0 < depth
    ensures var sh := ProbeRay(m, ops, scene, origin, dir, minT).sh;
            TraceRay(m, ops, scene, origin, dir, minT, depth)
              == ops.add(ops.scale(sh.local, 1.0 - sh.reflectivity),
                         ops.scale(TraceRay(m, ops, scene, sh.point, ReflectRay(sh.normal, Neg(dir)), ReflectionMinT, depth - 1),
                                   sh.reflectivity))
  {
    TraceReflects(ops, Prober(m, ops, scene), origin, dir, minT, depth);
  }

  /** The recursion is the blend of the colours along its reflection path. */
  lemma {:induction false} TraceComposite(ops: ColorOps, probe: (Vec3, Vec3, real) -> Probe,
                                          origin: Vec3, dir: Vec3, minT: real, depth: nat)
    ensures Trace(ops, probe, origin, dir, minT, depth) == Composite(ops, Path(probe, origin, dir, minT, depth))
    decreases depth
  {
    match probe(origin, dir, minT)
    case Missed =>
    case Struck(sh) =>
      if 0.0 < sh.reflectivity && depth != 0 {
        var next := ReflectRay(sh.normal, Neg(dir));
        TraceComposite(ops, probe, sh.point, next, ReflectionMinT, depth - 1);
        CompositeCons(ops, Visit(Ray(origin, dir, minT), Struck(sh)), Path(probe, sh.point, next, ReflectionMinT, depth - 1));
      }
  }

  /** `trace_ray` on a scene is the blend along the path of its nested calls. */
  lemma TraceRayComposite(m: MathLib, ops: ColorOps, scene: Scene, origin: Vec3, dir: Vec3,
                          minT: real, depth: nat)
    requires Lawful(m) && WellFormed(scene)
    ensures TraceRay(m, ops, scene, origin, dir, minT, depth)
         == Composite(ops, Path(Prober(m, ops, scene), origin, dir, minT, depth))
  {
    TraceComposite(ops, Prober(m, ops, scene), origin, dir, minT, depth);
  }

  /** A ray that hits nothing is black, and no further ray is traced. */
  lemma TraceRayMiss(m: MathLib, ops: ColorOps, scene: Scene, origin: Vec3, dir: Vec3, minT: real, depth: nat)
    requires Lawful(m) && WellFormed(scene)
    requires forall i :: 0 <= i < |scene.spheres| ==>
               !HasRootIn(IntersectRaySphere(m, origin, dir, scene.spheres[i]), minT, FloatMax)
    ensures TraceRay(m, ops, scene, origin, dir, minT, depth) == Black
    ensures Path(Prober(m, ops, scene), origin, dir, minT, depth) == [Visit(Ray(origin, dir, minT), Missed)]
  {
    forall i | 0 <= i < |scene.spheres|
      ensures !HasRootIn(AllRoots(m, scene.spheres, origin, dir)[i], minT, FloatMax)
    {
      RootsOfSphere(m, scene.spheres, origin, dir, i);
    }
  }

  /** With depth zero, or a hit on a non-reflective surface, the result is
      the lit colour of that surface and no further ray is traced. */
  lemma TraceRayLocal(m: MathLib, ops: ColorOps, scene: Scene, origin: Vec3, dir: Vec3, minT: real, depth: nat)
    requires Lawful(m) && WellFormed(scene)
    requires var p := ProbeRay(m, ops, scene, origin, dir, minT);
             p.Struck? && (p.sh.reflectivity <= 0.0 || depth == 0)
    ensures TraceRay(m, ops, scene, origin, dir, minT, depth) == ProbeRay(m, ops, scene, origin, dir, minT).sh.local
    ensures |Path(Prober(m, ops, scene), origin, dir, minT, depth)| == 1
  {
  }
}

=== FILE: vec.dfy ===
/** The small vector types of Vec.h, over idealised real arithmetic.
    `Vec3` carries the operators the renderer uses; `Vec2i` is an integer
    pixel coordinate and `Vec4` is what a matrix-vector product yields. */
module Vec {

  datatype Vec2i = Vec2i(x: int, y: int)

  datatype Vec3 = Vec3(x: real, y: real, z: real)

  datatype Vec4 = Vec4(x: real, y: real, z: real, w: real)

  const Zero: Vec3 := Vec3(0.0, 0.0, 0.0)

  /** Unary minus. */
  function Neg(a: Vec3): Vec3
  {
    Vec3(-a.x, -a.y, -a.z)
  }

  /** Binary minus, component-wise. */
  function Sub(a: Vec3, b: Vec3): Vec3
  {
    Vec3(a.x - b.x, a.y - b.y, a.z - b.z)
  }

  function Add(a: Vec3, b: Vec3): Vec3
  {
    Vec3(a.x + b.x, a.y + b.y, a.z + b.z)
  }

  /** Scalar on the left, as in `k * v`. */
  function Scale(k: real, a: Vec3): Vec3
  {
    Vec3(k * a.x, k * a.y, k * a.z)
  }

  /** Division by a scalar on the right, as in `v / k`. A zero divisor gives
      non-finite components in floating point; over the reals it is excluded. */
  function Div(a: Vec3, k: real): Vec3
    requires k != 0.0
  {
    Vec3(a.x / k, a.y / k, a.z / k)
  }

  lemma NegInvolution(a: Vec3)
    ensures Neg(Neg(a)) == a
  {
  }

  /** Subtraction undoes addition. */
  lemma SubThenAdd(a: Vec3, b: Vec3)
    ensures Add(Sub(a, b), b) == a
    ensures Sub(Add(a, b), b) == a
  {
  }

  lemma SubIsAddNeg(a: Vec3, b: Vec3)
    ensures Sub(a, b) == Add(a, Neg(b))
  {
  }

  lemma ScaleDistributes(k: real, a: Vec3, b: Vec3)
    ensures Scale(k, Add(a, b)) == Add(Scale(k, a), Scale(k, b))
  {
  }

  /** Scaling by `k` and dividing by `k` cancel. */
  lemma DivUndoesScale(k: real, a: Vec3)
    requires k != 0.0
    ensures Div(Scale(k, a), k) == a
  {
  }

  lemma AddZero(a: Vec3)
    ensures Add(a, Zero) == a && Add(Zero, a) == a
  {
  }

  lemma AddAssociative(a: Vec3, b: Vec3, c: Vec3)
    ensures Add(Add(a, b), c) == Add(a, Add(b, c))
  {
  }

  lemma AddCommutative(a: Vec3, b: Vec3)
    ensures Add(a, b) == Add(b, a)
  {
  }
}
